=== FILE: README.md ===
# join-table-model in Dafny

This project models the part of `join-table-model` that turns a search into
query-builder calls. The library lets a caller treat a base table and the
tables joined to it as one flat record source. The model covers two pieces:

- **The condition translator** (`src/Where.ts`). It turns a filter into
  predicate calls. A filter is one group of field conditions, or an array of
  groups that are OR-combined. Operator objects are dispatched through the
  operator table.
- **The table model** (`src/index.ts`). It covers:
  - the join-field information the constructor derives from the join
    declarations;
  - option defaulting;
  - the left-join step, which walks join paths, joins each distinct hop
    once and numbers the table aliases;
  - field qualification into `alias.column` references;
  - the clauses a record search or a count search adds.

The knex query builder is modelled as the list of calls made on it. A search
yields a `seq<Clause>` in call order, or `Err` with the message of the
`Error` the source would throw.

`_joinFieldInfo`, the where object and the qualified where object are
sequences of key/value entries in insertion order (module `JsMap`):

- assigning an existing key keeps its position and replaces its value;
- lookups return `Option`.

The per-search bookkeeping Maps of `_searchLeftJoin` (the alias counter per
table, the hop memo and the field-to-alias map) are Dafny `map`s in
`JoinResolver.JoinState`, because the source never reads their order; they
are read with `in` and indexing. `x || d` is modelled explicitly, so `0`,
`""` and `undefined` all give way to the default.

Modules:

| module | file | what it holds |
|---|---|---|
| `Outcomes` | outcomes.dfy | `Option`, `Result` |
| `JsString` | js_string.dfy | decimal rendering of alias counters, trailing-digit facts |
| `JsMap` | js_map.dfy | insertion-ordered maps and objects |
| `Knex` | knex.dfy | values and builder calls (`Clause`) |
| `Where` | where.dfy | the operator table and the condition translator |
| `JoinConfig` | join_config.dfy | join declarations and `_joinFieldInfo` |
| `SearchOptions` | search_options.dfy | raw and defaulted options (`_searchOptionCheck`) |
| `JoinResolver` | join_resolver.dfy | `_searchLeftJoin` and its alias numbering |
| `FieldQualifier` | field_qualifier.dfy | `_fieldParse` and the qualified where object |
| `TableModel` | table_model.dfy | `_searchWhere`, `_searchRecord`, `_searchCount`, `_search` |
| `Scenarios` | scenarios.dfy | the test suite's searches, at the level of builder calls |

Three behaviours of the code that are easy to miss:

- The not-null operator is registered as `$notNUll`. The correctly spelled
  `$notNull` is rejected as an invalid condition (`Where.NotNullSpelling`).
- The order-by direction is handed to the builder exactly as given; the code
  does no case-insensitive comparison.
- Table aliases can collide when a table name ends in a digit
  (`JoinResolver.AliasCollision`). Alias distinctness is proved only for
  models without such names.

## Model

| member | source | states |
|---|---|---|
| JsMap.Set | src/index.ts:33-36 | Setting a key gives that key the new value and leaves every other key's value alone; a new key is appended at the end, while an existing key keeps its position; distinct keys stay distinct |
| JsMap.FromEntriesKeys | src/index.ts:30-38 | Assigning entries one by one yields an object with distinct keys: exactly the entries' keys, each once, in order of first assignment |
| JsMap.FromEntriesLast | src/index.ts:309-313 | Each key of the assembled object holds the value of the last entry assigned to it |
| JsMap.FromEntriesDistinct | src/index.ts:309-313 | Assigning entries with distinct keys yields exactly those entries, in order |
| JsString.DecimalStringDistinct | src/index.ts:252 | Different alias counters render as different digit strings |
| JoinConfig.JoinFieldInfo | src/index.ts:30-38 | `_joinFieldInfo` has one entry per declared field alias, in order of first declaration; each entry holds the column and path of the alias's last declaration |
| JoinConfig.JoinFieldInfoDomain | src/index.ts:30-38 | An alias has join-field information if and only if some join declares it; the information is the column and path of one of its declarations |
| SearchOptions.DefaultSelect | src/index.ts:186-192 | The default record selection is `table.*` followed by every declared field alias, once each, in order of first declaration (the iteration order of `_joinFieldInfo`) |
| SearchOptions.OrNumber | src/index.ts:178-179 | `x \|\| d` on a number: the given value if it is present and non-zero, otherwise the default |
| SearchOptions.OrEmpty | src/index.ts:176-180 | `x \|\| []` on the select and order-by arrays, and `where \|\| {}`: the given value when present (an empty array or object is truthy), otherwise the empty one |
| SearchOptions.OptionCheck | src/index.ts:170-195 | Offset defaults to 0 and limit to 1000, and the limit is never 0; where defaults to empty. A count search has empty select and order-by. A record search keeps its order-by and a non-empty select; an empty select becomes `table.*` followed by every join-field alias |
| SearchOptions.OptionCheckIdempotent | src/index.ts:176-193 | Defaulting options that were already defaulted changes nothing |
| SearchOptions.DefaultSelectCoversJoinFields | src/index.ts:186-192 | A record search with nothing selected selects every declared join field |
| JoinResolver.JoinHop | src/index.ts:242-263 | A hop already in the memo from the same left alias reuses its alias and emits nothing. Otherwise it emits one left join named after the table's next occurrence, and memoises the alias under the `left.lfield->rtable.rfield` key |
| JoinResolver.Start | src/index.ts:216-227 | Fresh bookkeeping for one search: the base table already counts once, with no memoised hop, no mapped field and no join |
| JoinResolver.HopKey | src/index.ts:243 | The memo key of a hop: `left.lfield->rtable.rfield` |
| JoinResolver.AliasName | src/index.ts:248-252 | The alias of a table's n-th occurrence in a search: the bare name for the first, the name followed by n after that |
| JoinResolver.Needed | src/index.ts:232-236 | A join is needed when one of its field aliases is referenced (see `Referenced`) |
| JoinResolver.Referenced | src/index.ts:233-235 | A field alias is referenced when it is a where key, is selected, or is the field of an order-by entry |
| JoinResolver.WalkPath | src/index.ts:240-264 | An empty path ends at the starting alias. A non-empty walk ends at the alias the memo holds for the path's last hop, as `ltableAlias = rtableAlias` leaves it. A walk emits at most one join per hop and keeps earlier joins in front |
| JoinResolver.WalkPathSnoc | src/index.ts:240-264 | Each hop is taken from the alias the walk has reached so far: walking one more hop is a single hop step from where the walk ended, so each emitted join's left reference is `reachedAlias.lfield` |
| JoinResolver.ResolveJoin | src/index.ts:229-268 | A join that is not needed changes nothing. A needed join maps each of its field aliases to the alias its path ends at: the base table for an empty path, otherwise the alias memoised for the last hop. Every other alias keeps its mapping, and earlier join clauses stay in front |
| JoinResolver.RecordFields | src/index.ts:266-268 | Every listed alias maps to the given table alias; all other mappings are kept |
| JoinResolver.ResolveAllInv | src/index.ts:215-269 | The bookkeeping invariant holds across all joins: one join clause per memo entry; each table's counter equals its join count, plus one for the base table; each clause's alias is numbered by its table's occurrence; every memoised or field alias is the base table or an emitted alias |
| JoinResolver.ResolveAll | src/index.ts:229-269 | Processing the joins in declaration order only appends join clauses and never unmaps a field alias |
| JoinResolver.LeftJoinAll | src/index.ts:204-274 | `_searchLeftJoin` emits only join clauses, one per distinct hop key. Each field's table alias is the base table or an alias one of those clauses introduced |
| JoinResolver.FieldTableDomain | src/index.ts:229-268 | A field alias is mapped if and only if some needed join declares it |
| JoinResolver.UnneededJoinIsSkipped | src/index.ts:232-238 | A join none of whose aliases is a where key, selected or ordered by adds no clause and records no field |
| JoinResolver.RepeatedHopReused | src/index.ts:243-261 | Taking the same hop twice from the same alias emits nothing the second time and yields the same alias |
| JoinResolver.SamePathWalkedOnce | src/index.ts:242-264 | Walking the same path a second time emits no clause and ends at the same alias |
| JoinResolver.WalkPathMemoGrows | src/index.ts:245-260 | Walking only adds memo entries and never changes one |
| JoinResolver.AliasNamesOfOneTable | src/index.ts:248-252 | Different occurrences of one table get different aliases |
| JoinResolver.AliasNamesOfTwoTables | src/index.ts:248-252 | Different tables whose names do not end in a digit never share an alias |
| JoinResolver.TwoAliasesDistinct | src/index.ts:248-252 | Two join clauses of one search carry different aliases, given that invariant and no trailing digits |
| JoinResolver.AliasNotBase | src/index.ts:216-217 | No join clause reuses the base table's name as its alias (the base table is seeded as occurrence 1), given no trailing digits |
| JoinResolver.LeftJoinAliasNumbering | src/index.ts:216-263 | The k-th join clause to a table is aliased after that table's k-th occurrence, with the base table counting first |
| JoinResolver.LeftJoinAliasesDistinct | src/index.ts:208-213 | In one search, every emitted clause is a join; their aliases are pairwise distinct and differ from the base table, when no table name ends in a digit |
| JoinResolver.AliasCollision | src/index.ts:248-252 | Counterexample: joining `t` to itself and then to a table named `t2` gives both join clauses the alias `t2` |
| JoinResolver.CountSearchJoinsOnWhereKeys | src/index.ts:232-236 | In a count search, a join is needed if and only if one of its aliases is a where key |
| JoinResolver.DefaultRecordSearchNeedsEveryJoin | src/index.ts:186-192 | A record search with nothing selected needs every join that declares a field |
| FieldQualifier.Qualify | src/index.ts:286-294 | A name containing `.` is returned unchanged; every result contains `.` |
| FieldQualifier.QualifyIdempotent | src/index.ts:286-288 | Qualifying a qualified name changes nothing |
| FieldQualifier.QualifyBaseField | src/index.ts:290-294 | A field that no join declares and the search did not map is read from the base table under its own name |
| FieldQualifier.QualifyJoinField | src/index.ts:290-294 | A mapped join field is read from its mapped alias, under the column one of its declarations names |
| FieldQualifier.QualifyGroup | src/index.ts:308-313 | The qualified where object has distinct keys, each containing `.`. Its keys are the qualified where keys, each once, in order of first assignment |
| FieldQualifier.QualifyGroupLastWins | src/index.ts:308-313 | Where keys that qualify to the same reference merge, and the condition assigned last wins |
| Where.LookupOperator | src/Where.ts:104 | An operator found under a key is the operator registered under exactly that key |
| Where.LookupOperatorComplete | src/Where.ts:16-32 | Lookup fails if and only if no operator is registered under the key |
| Where.OperatorTableRoundTrip | src/Where.ts:16-32 | Looking up any operator's registered key finds that operator |
| Where.Apply | src/Where.ts:20-31 | Every operator makes exactly one predicate call, on the given field |
| Where.NullChecksIgnoreOperand | src/Where.ts:26-27 | `$null` and `$notNUll` make the same null check whatever operand accompanies them |
| Where.IsScalar | src/Where.ts:95-98 | A condition compared for equality: not an object, or a `Date` |
| Where.Entries | src/Where.ts:103 | `Object.entries` of a condition: an object's own entries in order; an array's items keyed by their decimal index |
| Where.InvalidMessage | src/Where.ts:106 | The error for an unregistered key: `condition <key> invalid` |
| Where.ParseOperators | src/Where.ts:103-109 | It succeeds if and only if every key is registered. On success, one call per entry, in order, each that entry's operator applied to the field. On failure, the message names the first unregistered key |
| Where.ParseCondition | src/Where.ts:90-110 | A plain value or a date becomes one equality. Otherwise success holds if and only if every key of the object or array is registered. Every resulting call is a predicate on the field |
| Where.ParseWhere | src/Where.ts:76-82 | A group succeeds if and only if every condition does. Its calls are predicates on the group's keys. A one-entry group means exactly its condition. A failure is the failure of the first condition that fails, since `forEach` stops at the first throw |
| Where.ParseWhereAppend | src/Where.ts:80-81 | Entries are translated one after another: the calls of a concatenated group are the first part's calls followed by the second part's, and a failure in the first part is reported before anything in the second |
| Where.ScalarGroup | src/Where.ts:80-100 | A group of plain values becomes one equality per entry, in entry order |
| Where.OrScopes | src/Where.ts:64-68 | Success holds if and only if every group succeeds. The result then has one OR scope per group, in order, holding that group's calls |
| Where.ParseToSqlBuilder | src/Where.ts:46-69 | A single group, and a one-element array, translate exactly as `_parseWhere` of that group. An empty array adds nothing. Two or more groups give one OR scope per group, holding that group's calls, and succeed if and only if every group does |
| Where.SingletonUnwrapped | src/Where.ts:59-62 | A one-element array means exactly what its only group means, with no OR scope |
| Where.SingleOperator | src/Where.ts:103-108 | An object with one registered operator makes exactly that operator's call |
| Where.InvalidKeyAfterValidFails | src/Where.ts:103-106 | Every key is looked up: an unregistered key fails the condition wherever it stands, even after registered ones |
| Where.FirstKeyInvalid | src/Where.ts:104-106 | An object whose first key is unregistered fails with `condition <key> invalid` |
| Where.NotNullSpelling | src/Where.ts:27 | `{$notNull: true}` fails with `condition $notNull invalid`; `{$notNUll: true}` adds `whereNotNull` |
| Where.ArrayConditionFails | src/Where.ts:103-106 | A non-empty array given as a condition fails on its first index key: `condition 0 invalid` |
| TableModel.SearchWhere | src/index.ts:303-315 | If every where condition is valid, the step succeeds. Its calls are predicates on a qualified where key; a failure is the translator's error for one invalid where condition |
| TableModel.SearchWhereEntries | src/index.ts:308-314 | When no two where keys qualify to the same reference, the where step makes exactly the translator's calls for the where entries with their keys qualified, in entry order |
| TableModel.SelectColumn | src/index.ts:345-347 | A name containing `*` is selected as given; any other name is selected as its `_fieldParse` reference renamed to the name itself, and a dotted name as itself |
| TableModel.CountColumn | src/index.ts:323 | The count reads the base table's `id` column under the name `count` |
| TableModel.RecordClauses | src/index.ts:340-351 | One ordering per order-by entry, on the qualified field with its direction as given. Then one select with one column per selected name, then the offset, then the limit |
| TableModel.Tail | src/index.ts:146-148 | A count search ends with `count(table.id as count)`. A record search ends with select, offset and limit, and never counts |
| TableModel.Search | src/index.ts:131-149 | On success, the joins of the left-join step come first, exactly. No join clause and no OR scope follows them |
| TableModel.SearchFails | src/index.ts:144 | A search fails only when some where condition is invalid |
| TableModel.SearchSucceeds | src/index.ts:137-148 | A search whose where conditions are all valid succeeds |
| TableModel.SearchQualified | src/index.ts:309-347 | Every predicate and every ordering of a search is on a qualified `alias.column` reference |
| TableModel.SearchCountShape | src/index.ts:322-323 | A count search ends with the count of the base table's ids and makes no ordering, select, offset or limit call |
| TableModel.SearchRecordShape | src/index.ts:344-351 | A record search ends with select, `offset(offset \|\| 0)` and `limit(limit \|\| 1000)`; the limit is never 0 and nothing counts |
| TableModel.NoJoinWithoutReference | src/index.ts:229-238 | A search that references no join field makes no join and maps no field |
| TableModel.SearchAliasesDistinct | src/index.ts:208-213 | The join clauses of a search carry pairwise distinct aliases, none equal to the base table, when no table name ends in a digit |
| TableModel.SelectedJoinField | src/index.ts:345-347 | A selected join field is mapped to the base table or to an alias this search's joins introduced. It is selected as `alias.column as field`, with the column from one of its declarations |
| TableModel.EmittedAliasNonEmpty | src/index.ts:248-252 | Every alias a join clause introduces is non-empty when every joined table name is |
| Scenarios.JoinInfo | test/JoinTableModel.test.ts:23-35 | The test's model records `user_phone` as the `phone` column reached through the one-hop `phone` path |
| Scenarios.DefaultSearch | test/JoinTableModel.test.ts:52-55 | With no options: left join `phone`, select `user.*` and `phone.phone as user_phone`, offset 0, limit 1000 |
| Scenarios.WhereSearch | test/JoinTableModel.test.ts:63-68 | `where: {id: 1}` adds `where user.id = 1` between the join and the select |
| Scenarios.OrGroups | test/JoinTableModel.test.ts:75-80 | The groups `[{user.id: 1}, {user.id: 2}]` become two OR scopes, one equality each |
| Scenarios.SelectSearch | test/JoinTableModel.test.ts:83-88 | `select: ['id']` makes no join and selects `user.id as id` |
| Scenarios.OrderBySearch | test/JoinTableModel.test.ts:94-99 | `orderBy: [['id', 'asc']]` adds `orderBy(user.id, asc)` before the select |
| Scenarios.CountOnJoinField | src/index.ts:143-148 | A count filtered with `$like` on `user_phone` makes the phone join, a `LIKE` on `phone.phone` and the count of `user.id` |

## Left out

- Executing the query is not modelled: `execute`, the MySQL connection, `toQuery` and the async plumbing are external. The count's result row is not read either.
- Rendering clauses to SQL text is not modelled. Identifier quoting and statement layout belong to the builder library. The test scenarios are checked at the level of builder calls, not SQL strings.
- The pagination helpers `find`, `forEach`, `map` and `count` are loops around the executor. `find` keeps looping once `limit` stops doubling at 1024, so it is not claimed to terminate. The scenarios pass no options at all (`NoOptions`), which default to the same offset 0 and limit 1000 the helpers start from.
- An array of groups as `where` through the table model is left out. `_searchWhere` treats the array as an object keyed `"0"`, `"1"`, …, so group `i` becomes a condition on `user.i` and fails with an invalid-operator error. Also, `needJoin` never finds field aliases inside the groups. The test expecting OR scopes there contradicts the code. The table model's where is therefore one group, and OR grouping is modelled at the translator level (`Where.OrScopes`, `Scenarios.OrGroups`).
- The `scene` and `typeof option` assertions are not modelled: the scene is a two-valued datatype, and options are always a record.
- Mutation of the caller's option object is not modelled. In the source, defaults are written into it, and an empty select array is pushed onto.
- Operator lookup uses only the table's own keys. In JavaScript, prototype keys such as `constructor` would also be found.
- `needJoin` reads `opt.where[alias]` (src/index.ts:233), which also finds prototype properties: a join declaring a field alias such as `constructor` or `toString` would be needed by every search. `JoinResolver.Referenced` checks the where object's own keys only.
- Operand shapes are not checked. The declared types allow only plain values for comparisons, `true` for the null checks, arrays for `$in`/`$notIn` and a pair for `$between`, and knex checks some of its arguments itself. The model hands any operand to the call, so `{$between: 5}` translates without error.
- TableModel.SearchSucceeds: promises success for every registered operator whatever its operand, because the builder's own argument checks are not modelled.
- A where value of `undefined` does not exist in the model. Every where key present counts as referenced for the join check.
- Objects keep plain insertion order. JavaScript lists integer-like keys first in `Object.entries`, and that reordering is not modelled.
- Numbers are unbounded integers and dates are integer timestamps. Floating point and `NaN` are not modelled.
- The hop memo key is the source's concatenated string, so two different hops whose names contain `.` or `->` can share a key, as in the source.
- JoinResolver.LeftJoinAliasesDistinct: requires that no table name ends in a digit. Without that, aliases can collide (`JoinResolver.AliasCollision`).
- TableModel.SearchAliasesDistinct: has the same proviso as `LeftJoinAliasesDistinct`.
- TableModel.SelectedJoinField: requires non-empty table names. An empty alias is falsy in `fieldTableMap.get(f) || table` and would fall back to the base table.
- Scenarios.DefaultSearch and the other scenario lemmas: stated for the test suite's `user`/`phone` model only.

=== FILE: field_qualifier.dfy ===
/** Rewrites a logical field name into the `alias.column` reference the
    builder needs, using the field map of the current search and the
    join-field information of the model. */
module FieldQualifier {
  import opened Outcomes
  import opened JoinConfig
  import JsMap
  import Where

  /** `_fieldParse`: a name that already contains `.` (such as `user.*`) is
      left as it is; otherwise the table alias is the one the search
      recorded for the field, or the base table, and the column is the
      declared join column, or the name itself. */
  function Qualify(m: Model, fieldTable: map<string, string>, f: string): (r: string)
    ensures '.' in f ==> r == f
    ensures '.' in r
  {
    if '.' in f then f
    else
      // `fieldTableMap.get(f) || table`: an empty alias is falsy too
      var alias := if f in fieldTable && fieldTable[f] != "" then fieldTable[f] else m.table;
      var column := match JsMap.Get(JoinFieldInfo(m), f)
        case Some(info) => info.column
        case None => f;
      assert (alias + "." + column)[|alias|] == '.';
      alias + "." + column
  }

  /** Qualifying twice is qualifying once. */
  lemma QualifyIdempotent(m: Model, fieldTable: map<string, string>, f: string)
    ensures Qualify(m, fieldTable, Qualify(m, fieldTable, f)) == Qualify(m, fieldTable, f)
  {
  }

  /** A field of the base table that no join declares and the search did not
      map is read from the base table under its own name. */
  lemma QualifyBaseField(m: Model, fieldTable: map<string, string>, f: string)
    requires '.' !in f && f !in fieldTable
    requires forall k :: 0 <= k < |m.joins| ==> f !in FieldAliases(m.joins[k])
    ensures Qualify(m, fieldTable, f) == m.table + "." + f
  {
    JoinFieldInfoDomain(m, f);
    JsMap.FromEntriesKeys(Declarations(m.joins));
    JsMap.FromEntriesAbsent(Declarations(m.joins), f);
  }

  /** A join field the search mapped is read from the mapped alias, under the
      column one of its declarations names. */
  lemma QualifyJoinField(m: Model, fieldTable: map<string, string>, f: string, k: nat)
    requires '.' !in f && f in fieldTable && fieldTable[f] != ""
    requires k < |m.joins| && f in FieldAliases(m.joins[k])
    ensures exists k', i ::
              && 0 <= k' < |m.joins| && 0 <= i < |m.joins[k'].select| && m.joins[k'].select[i].0 == f
              && Qualify(m, fieldTable, f) == fieldTable[f] + "." + m.joins[k'].select[i].1
  {
    JoinFieldInfoDomain(m, f);
    var info := JoinFieldInfo(m);
    assert JsMap.Get(info, f).Some? by {
      assert f in JsMap.Keys(info);
    }
  }

  /** The where object with every key qualified, assigned in entry order as
      `_searchWhere` does: keys that qualify to the same reference merge,
      keeping the first position and the last condition. */
  function QualifyGroup(m: Model, fieldTable: map<string, string>, where: Where.Group): (r: Where.Group)
    ensures JsMap.DistinctKeys(r)
    ensures JsMap.Keys(r) == JsMap.Unique(JsMap.Keys(QualifiedEntries(m, fieldTable, where)))
    ensures forall k :: k in JsMap.Keys(r) ==> '.' in k
    ensures forall k :: k in JsMap.Keys(r) <==> exists i :: 0 <= i < |where| && k == Qualify(m, fieldTable, where[i].0)
  {
    var es := QualifiedEntries(m, fieldTable, where);
    JsMap.FromEntriesKeys(es);
    assert forall k :: k in JsMap.Keys(es) <==> exists i :: 0 <= i < |where| && k == Qualify(m, fieldTable, where[i].0) by {
      forall k ensures k in JsMap.Keys(es) ==> exists i :: 0 <= i < |where| && k == Qualify(m, fieldTable, where[i].0) {
        if k in JsMap.Keys(es) {
          var i :| 0 <= i < |es| && JsMap.Keys(es)[i] == k;
        }
      }
      forall k, i | 0 <= i < |where| && k == Qualify(m, fieldTable, where[i].0) ensures k in JsMap.Keys(es) {
        assert JsMap.Keys(es)[i] == k;
      }
    }
    JsMap.FromEntries(es)
  }

  function QualifiedEntries(m: Model, fieldTable: map<string, string>, where: Where.Group): (es: Where.Group)
    ensures |es| == |where|
    ensures forall i :: 0 <= i < |es| ==> es[i] == (Qualify(m, fieldTable, where[i].0), where[i].1)
  {
    seq(|where|, i requires 0 <= i < |where| => (Qualify(m, fieldTable, where[i].0), where[i].1))
  }

  /** Each qualified key carries the condition of the last where entry that
      qualifies to it. */
  lemma QualifyGroupLastWins(m: Model, fieldTable: map<string, string>, where: Where.Group, i: nat)
    requires i < |where|
    requires forall j :: i < j < |where| ==> Qualify(m, fieldTable, where[j].0) != Qualify(m, fieldTable, where[i].0)
    ensures JsMap.Get(QualifyGroup(m, fieldTable, where), Qualify(m, fieldTable, where[i].0)) == Some(where[i].1)
  {
    var es := QualifiedEntries(m, fieldTable, where);
    assert JsMap.IsLastFor(es, i);
    JsMap.FromEntriesLast(es, i);
  }
}

=== FILE: join_config.dfy ===
/** The declared shape of a table model: the base table and its join
    specifications, fixed at construction, and the join-field information
    the constructor derives from them. */
module JoinConfig {
  import opened Outcomes
  import JsMap

  /** One step of a join path: `[right table, left field, right field]`. */
  datatype Hop = Hop(rtable: string, lfield: string, rfield: string)

  /** A join specification: the hop path and its `select` object, which
      maps each field alias to a column of the table the path ends at. */
  datatype Join = Join(path: seq<Hop>, select: seq<(string, string)>)

  /** The model's configuration; the executor is not part of the model. */
  datatype Model = Model(table: string, joins: seq<Join>)

  /** What the constructor records per field alias. */
  datatype FieldInfo = FieldInfo(column: string, path: seq<Hop>)

  /** The field aliases a join provides, in declaration order. */
  function FieldAliases(j: Join): seq<string> {
    JsMap.Keys(j.select)
  }

  /** The constructor's assignments for one join, in order. */
  function Declared(j: Join): (es: seq<(string, FieldInfo)>)
    ensures |es| == |j.select|
    ensures forall i :: 0 <= i < |es| ==> es[i] == (j.select[i].0, FieldInfo(j.select[i].1, j.path))
  {
    seq(|j.select|, i requires 0 <= i < |j.select| => (j.select[i].0, FieldInfo(j.select[i].1, j.path)))
  }

  /** The constructor's assignments for all joins, in order. */
  function Declarations(joins: seq<Join>): (es: seq<(string, FieldInfo)>)
    ensures forall e :: e in es <==> exists k :: 0 <= k < |joins| && e in Declared(joins[k])
    decreases |joins|
  {
    if |joins| == 0 then []
    else
      var n := |joins| - 1;
      assert forall k :: 0 <= k < n ==> joins[..n][k] == joins[k];
      Declarations(joins[..n]) + Declared(joins[n])
  }

  /** `_joinFieldInfo`, built once by the constructor: one entry per
      declared field alias, in order of first declaration, holding the
      column and path of the alias's last declaration. */
  function JoinFieldInfo(m: Model): (info: JsMap.Map<FieldInfo>)
    ensures JsMap.DistinctKeys(info)
    ensures JsMap.Keys(info) == JsMap.Unique(JsMap.Keys(Declarations(m.joins)))
    ensures forall i :: 0 <= i < |Declarations(m.joins)| && JsMap.IsLastFor(Declarations(m.joins), i) ==>
      JsMap.Get(info, Declarations(m.joins)[i].0) == Some(Declarations(m.joins)[i].1)
  {
    JsMap.FromEntriesKeys(Declarations(m.joins));
    JsMap.FromEntriesGet(Declarations(m.joins));
    JsMap.FromEntries(Declarations(m.joins))
  }

  /** A field alias has join-field information exactly when some join
      declares it, and the information is that of one of its declarations. */
  lemma JoinFieldInfoDomain(m: Model, a: string)
    ensures a in JsMap.Keys(JoinFieldInfo(m)) <==> exists k :: 0 <= k < |m.joins| && a in FieldAliases(m.joins[k])
    ensures JsMap.Get(JoinFieldInfo(m), a).Some? ==>
      exists k, i :: 0 <= k < |m.joins| && 0 <= i < |m.joins[k].select| &&
        m.joins[k].select[i].0 == a &&
        JsMap.Get(JoinFieldInfo(m), a) == Some(FieldInfo(m.joins[k].select[i].1, m.joins[k].path))
  {
    var es := Declarations(m.joins);
    JsMap.FromEntriesKeys(es);
    if a in JsMap.Keys(es) {
      var j :| 0 <= j < |es| && JsMap.Keys(es)[j] == a;
      assert es[j] in es;
      var k :| 0 <= k < |m.joins| && es[j] in Declared(m.joins[k]);
      var i :| 0 <= i < |Declared(m.joins[k])| && Declared(m.joins[k])[i] == es[j];
      assert FieldAliases(m.joins[k])[i] == a;
    }
    if exists k :: 0 <= k < |m.joins| && a in FieldAliases(m.joins[k]) {
      var k :| 0 <= k < |m.joins| && a in FieldAliases(m.joins[k]);
      var i :| 0 <= i < |m.joins[k].select| && FieldAliases(m.joins[k])[i] == a;
      var e := Declared(m.joins[k])[i];
      assert e in es;
      var j :| 0 <= j < |es| && es[j] == e;
      assert JsMap.Keys(es)[j] == a;
    }
    if JsMap.Get(JoinFieldInfo(m), a).Some? {
      assert a in JsMap.Keys(es) by {
        if a !in JsMap.Keys(es) {
          JsMap.FromEntriesAbsent(es, a);
        }
      }
      var j := JsMap.FromEntriesValue(es, a);
      assert es[j] in es;
      var k :| 0 <= k < |m.joins| && es[j] in Declared(m.joins[k]);
      var i :| 0 <= i < |Declared(m.joins[k])| && Declared(m.joins[k])[i] == es[j];
    }
  }
}

=== FILE: join_resolver.dfy ===
/** The left-join step of a search: decides which join specifications the
    search needs, walks their hop paths joining each distinct hop once,
    names table aliases, and records which alias supplies each field. All
    of its bookkeeping is built fresh for the search. */
module JoinResolver {
  import opened Knex
  import opened JsString
  import opened JoinConfig
  import opened SearchOptions
  import JsMap

  /** A join is needed when one of its field aliases is a where key, is
      selected, or is ordered by. */
  predicate Needed(j: Join, opt: SearchOpt) {
    exists a :: a in FieldAliases(j) && Referenced(a, opt)
  }

  predicate Referenced(a: string, opt: SearchOpt) {
    a in JsMap.Keys(opt.where) || a in opt.select || exists k :: 0 <= k < |opt.orderBy| && opt.orderBy[k].0 == a
  }

  /** The per-search bookkeeping: alias counter per table, the alias each
      joined hop received (keyed by `HopKey`), the alias supplying each
      field alias, and the join clauses emitted so far. */
  datatype JoinState = JoinState(
    counts: map<string, nat>,
    memo: map<string, string>,
    fieldTable: map<string, string>,
    joins: seq<Clause>)

  /** Fresh bookkeeping: the base table already counts once. */
  function Start(table: string): JoinState {
    JoinState(map[table := 1], map[], map[], [])
  }

  /** The memo key of a hop taken from the table aliased `left`. */
  function HopKey(left: string, hop: Hop): string {
    left + "." + hop.lfield + "->" + hop.rtable + "." + hop.rfield
  }

  /** The alias of the `n`-th occurrence of `table` in a search: its bare
      name first, then the name followed by the occurrence number. */
  function AliasName(table: string, n: nat): string {
    if n <= 1 then table else table + DecimalString(n)
  }

  function CountOf(counts: map<string, nat>, table: string): nat {
    if table in counts then counts[table] else 0
  }

  /** Takes one hop from the table aliased `left`; returns the bookkeeping
      and the alias of the table reached. */
  function JoinHop(st: JoinState, left: string, hop: Hop): (res: (JoinState, string))
    ensures HopKey(left, hop) in st.memo ==> res == (st, st.memo[HopKey(left, hop)])
    ensures HopKey(left, hop) !in st.memo ==>
      && res.1 == AliasName(hop.rtable, CountOf(st.counts, hop.rtable) + 1)
      && res.0.joins == st.joins + [LeftJoin(hop.rtable, res.1, left + "." + hop.lfield, res.1 + "." + hop.rfield)]
      && res.0.memo == st.memo[HopKey(left, hop) := res.1]
    ensures HopKey(left, hop) in res.0.memo && res.0.memo[HopKey(left, hop)] == res.1
    ensures res.0.fieldTable == st.fieldTable
  {
    var key := HopKey(left, hop);
    if key in st.memo then (st, st.memo[key])
    else
      var tac := CountOf(st.counts, hop.rtable);
      var alias := if tac > 0 then hop.rtable + DecimalString(tac + 1) else hop.rtable;
      var join := LeftJoin(hop.rtable, alias, left + "." + hop.lfield, alias + "." + hop.rfield);
      (JoinState(st.counts[hop.rtable := tac + 1], st.memo[key := alias], st.fieldTable, st.joins + [join]), alias)
  }

  /** The bookkeeping holds `alias` for `hop` taken from the table aliased
      `left`. */
  ghost predicate Memoised(st: JoinState, left: string, hop: Hop, alias: string) {
    HopKey(left, hop) in st.memo && st.memo[HopKey(left, hop)] == alias
  }

  /** `alias` is what the bookkeeping holds for `hop` taken from some
      table alias. */
  ghost predicate ReachedBy(st: JoinState, hop: Hop, alias: string) {
    exists left :: Memoised(st, left, hop, alias)
  }

  /** Walks a hop path from the table aliased `left`; returns the
      bookkeeping and the alias of the table the path ends at, which is the
      alias the bookkeeping holds for the path's last hop. */
  function WalkPath(st: JoinState, left: string, path: seq<Hop>): (res: (JoinState, string))
    ensures |path| == 0 ==> res == (st, left)
    ensures |path| > 0 ==> ReachedBy(res.0, path[|path| - 1], res.1)
    ensures res.0.fieldTable == st.fieldTable
    ensures |st.joins| <= |res.0.joins| <= |st.joins| + |path|
    ensures res.0.joins[..|st.joins|] == st.joins
    decreases |path|
  {
    if |path| == 0 then (st, left)
    else
      var (st1, alias) := JoinHop(st, left, path[0]);
      var res := WalkPath(st1, alias, path[1..]);
      assert |path| == 1 ==> res == (st1, alias) && Memoised(res.0, left, path[0], alias) && ReachedBy(res.0, path[0], alias);
      assert |path| > 1 ==> path[1..][|path| - 2] == path[|path| - 1];
      res
  }

  /** Each hop of a walk is taken from the alias the walk has reached so
      far: walking one more hop is a `JoinHop` from where the walk ended. */
  lemma {:induction false} WalkPathSnoc(st: JoinState, left: string, path: seq<Hop>, hop: Hop)
    ensures var (st1, alias) := WalkPath(st, left, path);
      WalkPath(st, left, path + [hop]) == JoinHop(st1, alias, hop)
    decreases |path|
  {
    var p := path + [hop];
    if |path| == 0 {
      assert p == [hop];
      assert p[1..] == [];
    } else {
      assert p[0] == path[0];
      assert p[1..] == path[1..] + [hop];
      var (st1, alias) := JoinHop(st, left, path[0]);
      WalkPathSnoc(st1, alias, path[1..], hop);
    }
  }

  /** One join specification: skipped when not needed; otherwise its path
      is walked from the base table and each of its field aliases is
      recorded as supplied by the table the path ends at. */
  function ResolveJoin(st: JoinState, base: string, opt: SearchOpt, j: Join): (r: JoinState)
    ensures !Needed(j, opt) ==> r == st
    ensures Needed(j, opt) ==> forall a :: a in FieldAliases(j) ==>
      a in r.fieldTable && r.fieldTable[a] == WalkPath(st, base, j.path).1
    ensures Needed(j, opt) && |j.path| == 0 ==> forall a :: a in FieldAliases(j) ==> r.fieldTable[a] == base
    ensures Needed(j, opt) && |j.path| > 0 ==> forall a :: a in FieldAliases(j) ==>
      ReachedBy(r, j.path[|j.path| - 1], r.fieldTable[a])
    ensures |st.joins| <= |r.joins| && r.joins[..|st.joins|] == st.joins
    ensures forall a :: a !in FieldAliases(j) ==>
      (a in r.fieldTable <==> a in st.fieldTable) && (a in st.fieldTable ==> r.fieldTable[a] == st.fieldTable[a])
  {
    if !Needed(j, opt) then st
    else
      var (walked, alias) := WalkPath(st, base, j.path);
      var r := walked.(fieldTable := RecordFields(walked.fieldTable, FieldAliases(j), alias));
      assert |j.path| > 0 ==> ReachedBy(r, j.path[|j.path| - 1], alias) by {
        if |j.path| > 0 {
          var left :| Memoised(walked, left, j.path[|j.path| - 1], alias);
          assert Memoised(r, left, j.path[|j.path| - 1], alias);
        }
      }
      r
  }

  /** Records every alias in `aliases` as supplied by `tableAlias`. */
  function RecordFields(ft: map<string, string>, aliases: seq<string>, tableAlias: string): (r: map<string, string>)
    ensures forall a :: a in aliases ==> a in r && r[a] == tableAlias
    ensures forall a :: a !in aliases ==> (a in r <==> a in ft) && (a in ft ==> r[a] == ft[a])
    decreases |aliases|
  {
    if |aliases| == 0 then ft else RecordFields(ft[aliases[0] := tableAlias], aliases[1..], tableAlias)
  }

  /** The join specifications in declaration order: clauses are only ever
      appended, and a field alias once recorded stays recorded. */
  function ResolveAll(st: JoinState, base: string, opt: SearchOpt, js: seq<Join>): (r: JoinState)
    ensures |st.joins| <= |r.joins| && r.joins[..|st.joins|] == st.joins
    ensures forall a :: a in st.fieldTable ==> a in r.fieldTable
    decreases |js|
  {
    if |js| == 0 then st
    else
      var st1 := ResolveJoin(st, base, opt, js[0]);
      var r := ResolveAll(st1, base, opt, js[1..]);
      assert r.joins[..|st.joins|] == r.joins[..|st1.joins|][..|st.joins|];
      r
  }

  /** `_searchLeftJoin`: it emits one join clause per distinct hop key it
      walked, and nothing else; each alias it records as supplying a field
      is the base table or an alias one of its join clauses introduced. */
  function LeftJoinAll(m: Model, opt: SearchOpt): (st: JoinState)
    ensures |st.joins| == |st.memo|
    ensures forall i :: 0 <= i < |st.joins| ==> st.joins[i].LeftJoin?
    ensures forall f :: f in st.fieldTable ==> st.fieldTable[f] == m.table || st.fieldTable[f] in EmittedAliases(st.joins)
  {
    var st := ResolveAll(Start(m.table), m.table, opt, m.joins);
    StartInv(m.table);
    ResolveAllInv(Start(m.table), m.table, opt, m.joins);
    AllJoinClauses(st.joins, m.table);
    st
  }

  // ---------------------------------------------------------------------
  // Invariant of the bookkeeping

  function Seed(base: string, t: string): nat {
    if t == base then 1 else 0
  }

  /** How many join clauses in `cs` join `t`. */
  function Occurrences(cs: seq<Clause>, t: string): nat
    decreases |cs|
  {
    if |cs| == 0 then 0
    else Occurrences(cs[..|cs| - 1], t) + (if cs[|cs| - 1].LeftJoin? && cs[|cs| - 1].table == t then 1 else 0)
  }

  /** The aliases the join clauses in `cs` introduce. */
  function EmittedAliases(cs: seq<Clause>): seq<string>
    decreases |cs|
  {
    if |cs| == 0 then []
    else EmittedAliases(cs[..|cs| - 1]) + (if cs[|cs| - 1].LeftJoin? then [cs[|cs| - 1].alias] else [])
  }

  /** What the bookkeeping keeps true:
      - one join clause per memo entry, and nothing but join clauses;
      - each table's counter is the number of its join clauses, plus one for
        the base table;
      - the i-th join clause to a table carries the alias of that
        occurrence (the base table's own occurrence counting first);
      - memo entries and field entries name the base table or an alias a
        join clause introduced. */
  ghost predicate Inv(st: JoinState, base: string) {
    && |st.joins| == |st.memo|
    && CountsInv(st, base)
    && AliasesInv(st.joins, base)
    && (forall k :: k in st.memo ==> st.memo[k] in EmittedAliases(st.joins))
    && (forall f :: f in st.fieldTable ==> st.fieldTable[f] == base || st.fieldTable[f] in EmittedAliases(st.joins))
  }

  ghost predicate CountsInv(st: JoinState, base: string) {
    forall t :: CountOf(st.counts, t) == Occurrences(st.joins, t) + Seed(base, t)
  }

  ghost predicate AliasesInv(joins: seq<Clause>, base: string) {
    forall i :: 0 <= i < |joins| ==> AliasNumbered(joins, i, base)
  }

  /** The alias of the join clause at `i` is numbered by the occurrences of
      its table up to and including it. */
  ghost predicate AliasNumbered(joins: seq<Clause>, i: nat, base: string)
    requires i < |joins|
  {
    joins[i].LeftJoin? &&
    joins[i].alias == AliasName(joins[i].table, Occurrences(joins[..i + 1], joins[i].table) + Seed(base, joins[i].table))
  }

  lemma AliasAt(joins: seq<Clause>, base: string, i: nat)
    requires AliasesInv(joins, base) && i < |joins|
    ensures joins[i].LeftJoin?
    ensures joins[i].alias == AliasName(joins[i].table, Occurrences(joins[..i + 1], joins[i].table) + Seed(base, joins[i].table))
  {
    assert AliasNumbered(joins, i, base);
  }

  lemma AllJoinClauses(joins: seq<Clause>, base: string)
    requires AliasesInv(joins, base)
    ensures forall i :: 0 <= i < |joins| ==> joins[i].LeftJoin?
  {
    forall i | 0 <= i < |joins| ensures joins[i].LeftJoin? {
      AliasAt(joins, base, i);
    }
  }

  lemma OccurrencesAppend(cs: seq<Clause>, c: Clause, t: string)
    ensures Occurrences(cs + [c], t) == Occurrences(cs, t) + (if c.LeftJoin? && c.table == t then 1 else 0)
    ensures EmittedAliases(cs + [c]) == EmittedAliases(cs) + (if c.LeftJoin? then [c.alias] else [])
  {
    assert (cs + [c])[..|cs|] == cs;
  }

  lemma StartInv(base: string)
    ensures Inv(Start(base), base)
  {
  }

  /** A new join clause to `t` whose alias is that of `t`'s next occurrence
      keeps the counters and the alias numbering right. */
  lemma NewJoinInv(st: JoinState, base: string, t: string, alias: string, c: Clause)
    requires CountsInv(st, base) && AliasesInv(st.joins, base)
    requires c.LeftJoin? && c.table == t && c.alias == alias
    requires alias == AliasName(t, CountOf(st.counts, t) + 1)
    ensures CountsInv(st.(counts := st.counts[t := CountOf(st.counts, t) + 1], joins := st.joins + [c]), base)
    ensures AliasesInv(st.joins + [c], base)
  {
    NewJoinCounts(st, base, t, c);
    assert CountOf(st.counts, t) == Occurrences(st.joins, t) + Seed(base, t);
    NewJoinAliases(st.joins, base, c);
  }

  lemma NewJoinCounts(st: JoinState, base: string, t: string, c: Clause)
    requires CountsInv(st, base)
    requires c.LeftJoin? && c.table == t
    ensures CountsInv(st.(counts := st.counts[t := CountOf(st.counts, t) + 1], joins := st.joins + [c]), base)
  {
    var joins' := st.joins + [c];
    var counts' := st.counts[t := CountOf(st.counts, t) + 1];
    forall t' ensures CountOf(counts', t') == Occurrences(joins', t') + Seed(base, t') {
      OccurrencesAppend(st.joins, c, t');
    }
  }

  lemma NewJoinAliases(joins: seq<Clause>, base: string, c: Clause)
    requires AliasesInv(joins, base)
    requires c.LeftJoin? && c.alias == AliasName(c.table, Occurrences(joins, c.table) + Seed(base, c.table) + 1)
    ensures AliasesInv(joins + [c], base)
  {
    forall i | 0 <= i < |joins| + 1 ensures AliasNumbered(joins + [c], i, base) {
      if i < |joins| {
        EarlierAliasKept(joins, base, c, i);
      } else {
        LastAliasNumbered(joins, base, c);
      }
    }
  }

  lemma EarlierAliasKept(joins: seq<Clause>, base: string, c: Clause, i: nat)
    requires AliasesInv(joins, base) && i < |joins|
    ensures AliasNumbered(joins + [c], i, base)
  {
    var joins' := joins + [c];
    assert AliasNumbered(joins, i, base);
    assert joins'[i] == joins[i];
    assert joins'[..i + 1] == joins[..i + 1];
  }

  lemma LastAliasNumbered(joins: seq<Clause>, base: string, c: Clause)
    requires c.LeftJoin? && c.alias == AliasName(c.table, Occurrences(joins, c.table) + Seed(base, c.table) + 1)
    ensures AliasNumbered(joins + [c], |joins|, base)
  {
    var joins' := joins + [c];
    var t := c.table;
    OccurrencesAppend(joins, c, t);
    var k := Occurrences(joins', t) + Seed(base, t);
    assert c.alias == AliasName(t, k);
    NumberedLast(joins', base);
  }

  /** The last clause's alias is numbered by all occurrences of its table. */
  lemma NumberedLast(joins: seq<Clause>, base: string)
    requires |joins| > 0
    ensures var n := |joins| - 1;
      AliasNumbered(joins, n, base) <==>
        joins[n].LeftJoin? && joins[n].alias == AliasName(joins[n].table, Occurrences(joins, joins[n].table) + Seed(base, joins[n].table))
  {
    assert joins[..|joins|] == joins;
  }

  lemma JoinHopInv(st: JoinState, base: string, left: string, hop: Hop)
    requires Inv(st, base)
    requires left == base || left in EmittedAliases(st.joins)
    ensures Inv(JoinHop(st, left, hop).0, base)
    ensures JoinHop(st, left, hop).1 in EmittedAliases(JoinHop(st, left, hop).0.joins)
  {
    var key := HopKey(left, hop);
    if key !in st.memo {
      var (st', alias) := JoinHop(st, left, hop);
      var c := LeftJoin(hop.rtable, alias, left + "." + hop.lfield, alias + "." + hop.rfield);
      NewJoinInv(st, base, hop.rtable, alias, c);
      OccurrencesAppend(st.joins, c, hop.rtable);
      assert |st'.memo| == |st.memo| + 1;
    }
  }

  lemma {:induction false} WalkPathInv(st: JoinState, base: string, left: string, path: seq<Hop>)
    requires Inv(st, base)
    requires left == base || left in EmittedAliases(st.joins)
    ensures Inv(WalkPath(st, left, path).0, base)
    ensures var (st', alias) := WalkPath(st, left, path); alias == base || alias in EmittedAliases(st'.joins)
    decreases |path|
  {
    if |path| > 0 {
      var (st1, alias) := JoinHop(st, left, path[0]);
      JoinHopInv(st, base, left, path[0]);
      WalkPathInv(st1, base, alias, path[1..]);
    }
  }

  lemma ResolveJoinInv(st: JoinState, base: string, opt: SearchOpt, j: Join)
    requires Inv(st, base)
    ensures Inv(ResolveJoin(st, base, opt, j), base)
  {
    if Needed(j, opt) {
      WalkPathInv(st, base, base, j.path);
    }
  }

  lemma {:induction false} ResolveAllInv(st: JoinState, base: string, opt: SearchOpt, js: seq<Join>)
    requires Inv(st, base)
    ensures Inv(ResolveAll(st, base, opt, js), base)
    decreases |js|
  {
    if |js| > 0 {
      ResolveJoinInv(st, base, opt, js[0]);
      ResolveAllInv(ResolveJoin(st, base, opt, js[0]), base, opt, js[1..]);
    }
  }

  // ---------------------------------------------------------------------
  // Properties of one search's joins

  /** A field alias is mapped to a table alias exactly when some needed
      join declares it. */
  lemma {:induction false} ResolveAllFields(st: JoinState, base: string, opt: SearchOpt, js: seq<Join>, a: string)
    ensures a in ResolveAll(st, base, opt, js).fieldTable <==>
      a in st.fieldTable || exists k :: 0 <= k < |js| && Needed(js[k], opt) && a in FieldAliases(js[k])
    decreases |js|
  {
    if |js| > 0 {
      var st1 := ResolveJoin(st, base, opt, js[0]);
      ResolveAllFields(st1, base, opt, js[1..], a);
      assert forall k :: 0 <= k < |js| - 1 ==> js[1..][k] == js[k + 1];
      if exists k :: 0 <= k < |js| && Needed(js[k], opt) && a in FieldAliases(js[k]) {
        var k :| 0 <= k < |js| && Needed(js[k], opt) && a in FieldAliases(js[k]);
        if k > 0 {
          assert js[1..][k - 1] == js[k];
        }
      }
    }
  }

  lemma FieldTableDomain(m: Model, opt: SearchOpt, a: string)
    ensures a in LeftJoinAll(m, opt).fieldTable <==>
      exists k :: 0 <= k < |m.joins| && Needed(m.joins[k], opt) && a in FieldAliases(m.joins[k])
  {
    ResolveAllFields(Start(m.table), m.table, opt, m.joins, a);
  }

  /** A join none of whose field aliases the search references adds no
      clause and records no field. */
  lemma UnneededJoinIsSkipped(st: JoinState, base: string, opt: SearchOpt, j: Join)
    requires forall a :: a in FieldAliases(j) ==> !Referenced(a, opt)
    ensures ResolveJoin(st, base, opt, j) == st
  {
  }

  /** A hop already joined in this search, from the same left alias, is not
      joined again: its alias is reused and nothing is emitted. */
  lemma RepeatedHopReused(st: JoinState, left: string, hop: Hop)
    ensures var (st1, a1) := JoinHop(st, left, hop);
      var (st2, a2) := JoinHop(st1, left, hop);
      st2 == st1 && a2 == a1
  {
  }

  /** Two joins declared with the same path share every join clause: the
      second walk emits nothing and ends at the same alias. */
  lemma {:induction false} SamePathWalkedOnce(st: JoinState, left: string, path: seq<Hop>)
    ensures var (st1, a1) := WalkPath(st, left, path);
      var (st2, a2) := WalkPath(st1, left, path);
      st2.joins == st1.joins && a2 == a1
    decreases |path|
  {
    if |path| > 0 {
      var (s1, b1) := JoinHop(st, left, path[0]);
      assert HopKey(left, path[0]) in s1.memo && s1.memo[HopKey(left, path[0])] == b1;
      var (st1, a1) := WalkPath(s1, b1, path[1..]);
      WalkPathMemoGrows(s1, b1, path[1..]);
      SamePathWalkedOnce(s1, b1, path[1..]);
      assert JoinHop(st1, left, path[0]) == (st1, b1);
    }
  }

  /** Walking only adds memo entries; it never changes one. */
  ghost predicate MemoGrows(st: JoinState, left: string, path: seq<Hop>)
  {
    forall k :: k in st.memo ==> k in WalkPath(st, left, path).0.memo && WalkPath(st, left, path).0.memo[k] == st.memo[k]
  }

  lemma {:induction false} WalkPathMemoGrows(st: JoinState, left: string, path: seq<Hop>)
    ensures MemoGrows(st, left, path)
    decreases |path|
  {
    if |path| > 0 {
      var (s1, b1) := JoinHop(st, left, path[0]);
      WalkPathMemoGrows(s1, b1, path[1..]);
    }
  }

  // ---------------------------------------------------------------------
  // Alias naming

  lemma {:induction false} OccurrencesMonotone(cs: seq<Clause>, i: nat, j: nat, t: string)
    requires i <= j <= |cs|
    ensures Occurrences(cs[..i], t) <= Occurrences(cs[..j], t)
    decreases j - i
  {
    if i < j {
      OccurrencesMonotone(cs, i, j - 1, t);
      assert cs[..j] == cs[..j - 1] + [cs[j - 1]];
      OccurrencesAppend(cs[..j - 1], cs[j - 1], t);
    }
  }

  /** Distinct occurrences of one table get distinct aliases. */
  lemma AliasNamesOfOneTable(t: string, n1: nat, n2: nat)
    requires 1 <= n1 < n2
    ensures AliasName(t, n1) != AliasName(t, n2)
  {
    var d2 := DecimalString(n2);
    assert |AliasName(t, n2)| > |t|;
    if n1 >= 2 {
      var d1 := DecimalString(n1);
      DecimalStringDistinct(n1, n2);
      assert (t + d1)[|t|..] == d1;
      assert (t + d2)[|t|..] == d2;
    }
  }

  /** Aliases of different tables differ, provided no table name ends in a
      digit. */
  lemma AliasNamesOfTwoTables(t1: string, n1: nat, t2: string, n2: nat)
    requires t1 != t2 && !EndsWithDigit(t1) && !EndsWithDigit(t2)
    ensures AliasName(t1, n1) != AliasName(t2, n2)
  {
    if n1 >= 2 {
      StripDigitSuffix(t1, DecimalString(n1));
      assert EndsWithDigit(AliasName(t1, n1));
    }
    if n2 >= 2 {
      StripDigitSuffix(t2, DecimalString(n2));
      assert EndsWithDigit(AliasName(t2, n2));
    }
  }

  lemma OccurrenceOfLast(joins: seq<Clause>, i: nat)
    requires i < |joins| && joins[i].LeftJoin?
    ensures Occurrences(joins[..i + 1], joins[i].table) == Occurrences(joins[..i], joins[i].table) + 1
  {
    assert joins[..i + 1] == joins[..i] + [joins[i]];
    OccurrencesAppend(joins[..i], joins[i], joins[i].table);
  }

  /** Two join clauses of one search carry different aliases. */
  lemma TwoAliasesDistinct(joins: seq<Clause>, base: string, i: nat, j: nat)
    requires AliasesInv(joins, base)
    requires i < j < |joins|
    requires joins[i].LeftJoin? && joins[j].LeftJoin?
    requires !EndsWithDigit(joins[i].table) && !EndsWithDigit(joins[j].table)
    ensures joins[i].alias != joins[j].alias
  {
    AliasAt(joins, base, i);
    AliasAt(joins, base, j);
    var ti, tj := joins[i].table, joins[j].table;
    var ni := Occurrences(joins[..i + 1], ti) + Seed(base, ti);
    var nj := Occurrences(joins[..j + 1], tj) + Seed(base, tj);
    OccurrenceOfLast(joins, i);
    OccurrenceOfLast(joins, j);
    if ti == tj {
      OccurrencesMonotone(joins, i + 1, j, ti);
      AliasNamesOfOneTable(ti, ni, nj);
    } else {
      AliasNamesOfTwoTables(ti, ni, tj, nj);
    }
  }

  /** No join clause reuses the base table's name as its alias. */
  lemma AliasNotBase(joins: seq<Clause>, base: string, i: nat)
    requires AliasesInv(joins, base)
    requires i < |joins| && joins[i].LeftJoin?
    requires !EndsWithDigit(joins[i].table) && !EndsWithDigit(base)
    ensures joins[i].alias != base
  {
    AliasAt(joins, base, i);
    var t := joins[i].table;
    var n := Occurrences(joins[..i + 1], t) + Seed(base, t);
    OccurrenceOfLast(joins, i);
    if t == base {
      AliasNamesOfOneTable(base, 1, n);
    } else {
      AliasNamesOfTwoTables(t, n, base, 1);
    }
  }

  /** The alias numbering yields pairwise distinct aliases, none of them the
      base table's own name, when no table name ends in a digit. */
  lemma AliasesDistinct(joins: seq<Clause>, base: string)
    requires AliasesInv(joins, base)
    requires forall i :: 0 <= i < |joins| && joins[i].LeftJoin? ==> !EndsWithDigit(joins[i].table)
    requires !EndsWithDigit(base)
    ensures forall i :: 0 <= i < |joins| ==> joins[i].LeftJoin?
    ensures forall i, j :: 0 <= i < j < |joins| ==> joins[i].alias != joins[j].alias
    ensures forall i :: 0 <= i < |joins| ==> joins[i].alias != base
  {
    AllJoinClauses(joins, base);
    forall i, j | 0 <= i < j < |joins| ensures joins[i].alias != joins[j].alias {
      TwoAliasesDistinct(joins, base, i, j);
    }
    forall i | 0 <= i < |joins| ensures joins[i].alias != base {
      AliasNotBase(joins, base, i);
    }
  }

  // ---------------------------------------------------------------------
  // Which tables are joined

  /** Every table any hop of `js` reaches. */
  ghost predicate HopsInto(js: seq<Join>, tables: set<string>) {
    forall k, h :: 0 <= k < |js| && 0 <= h < |js[k].path| ==> js[k].path[h].rtable in tables
  }

  ghost predicate JoinsInto(joins: seq<Clause>, tables: set<string>) {
    forall i :: 0 <= i < |joins| && joins[i].LeftJoin? ==> joins[i].table in tables
  }

  lemma {:induction false} WalkPathTables(st: JoinState, left: string, path: seq<Hop>, tables: set<string>)
    requires JoinsInto(st.joins, tables)
    requires forall h :: 0 <= h < |path| ==> path[h].rtable in tables
    ensures JoinsInto(WalkPath(st, left, path).0.joins, tables)
    decreases |path|
  {
    if |path| > 0 {
      var (st1, alias) := JoinHop(st, left, path[0]);
      assert forall h :: 0 <= h < |path| - 1 ==> path[1..][h] == path[h + 1];
      WalkPathTables(st1, alias, path[1..], tables);
    }
  }

  lemma {:induction false} ResolveAllTables(st: JoinState, base: string, opt: SearchOpt, js: seq<Join>, tables: set<string>)
    requires JoinsInto(st.joins, tables) && HopsInto(js, tables)
    ensures JoinsInto(ResolveAll(st, base, opt, js).joins, tables)
    decreases |js|
  {
    if |js| > 0 {
      if Needed(js[0], opt) {
        WalkPathTables(st, base, js[0].path, tables);
      }
      assert forall k :: 0 <= k < |js| - 1 ==> js[1..][k] == js[k + 1];
      ResolveAllTables(ResolveJoin(st, base, opt, js[0]), base, opt, js[1..], tables);
    }
  }

  /** No table the model names, base table or joined, ends in a digit. */
  ghost predicate NoTrailingDigits(m: Model) {
    && !EndsWithDigit(m.table)
    && forall k, h :: 0 <= k < |m.joins| && 0 <= h < |m.joins[k].path| ==> !EndsWithDigit(m.joins[k].path[h].rtable)
  }

  /** The k-th join of a table in one search is aliased by the table's name
      followed by k, the first by the bare name, and the base table counts
      as its own first occurrence. */
  lemma LeftJoinAliasNumbering(m: Model, opt: SearchOpt)
    ensures AliasesInv(LeftJoinAll(m, opt).joins, m.table)
  {
    StartInv(m.table);
    ResolveAllInv(Start(m.table), m.table, opt, m.joins);
  }

  /** All table aliases one search introduces are pairwise distinct and
      differ from the base table's name, when no table name ends in a
      digit. */
  lemma LeftJoinAliasesDistinct(m: Model, opt: SearchOpt)
    requires NoTrailingDigits(m)
    ensures var js := LeftJoinAll(m, opt).joins;
      && (forall i :: 0 <= i < |js| ==> js[i].LeftJoin?)
      && (forall i, j :: 0 <= i < j < |js| ==> js[i].alias != js[j].alias)
      && (forall i :: 0 <= i < |js| ==> js[i].alias != m.table)
  {
    var tables := set k, h | 0 <= k < |m.joins| && 0 <= h < |m.joins[k].path| :: m.joins[k].path[h].rtable;
    StartInv(m.table);
    ResolveAllInv(Start(m.table), m.table, opt, m.joins);
    ResolveAllTables(Start(m.table), m.table, opt, m.joins, tables);
    var js := LeftJoinAll(m, opt).joins;
    forall i | 0 <= i < |js| && js[i].LeftJoin? ensures !EndsWithDigit(js[i].table) {
      assert js[i].table in tables;
    }
    AliasesDistinct(js, m.table);
  }

  /** Without that proviso the numbering can collide: joining `t` back to
      itself names the second occurrence `t2`, which is also the bare alias
      of a table named `t2`. */
  lemma AliasCollision()
    ensures var m := Model("t", [Join([Hop("t", "id", "pid"), Hop("t2", "id", "tid")], [("other", "name")])]);
      var opt := SearchOpt(0, 1000, ["other"], [], []);
      var js := LeftJoinAll(m, opt).joins;
      |js| == 2 && js[0].alias == js[1].alias == "t2"
  {
    var j := Join([Hop("t", "id", "pid"), Hop("t2", "id", "tid")], [("other", "name")]);
    var opt := SearchOpt(0, 1000, ["other"], [], []);
    assert DecimalString(2) == "2";
    assert FieldAliases(j)[0] == "other" && Referenced("other", opt);
    var st0 := Start("t");
    var (st1, a1) := JoinHop(st0, "t", j.path[0]);
    assert a1 == "t2";
    var (st2, a2) := JoinHop(st1, a1, j.path[1]);
    assert a2 == "t2";
    assert WalkPath(st0, "t", j.path).0 == st2;
  }

  // ---------------------------------------------------------------------
  // Which joins a search needs

  /** A count search clears select and order-by, so only where keys can
      make a join needed. */
  lemma CountSearchJoinsOnWhereKeys(m: Model, raw: RawOption, j: Join)
    ensures Needed(j, OptionCheck(m, CountScene, raw)) <==>
      exists a :: a in FieldAliases(j) && a in JsMap.Keys(OrEmpty(raw.where))
  {
  }

  /** A record search with nothing selected selects every join field, so
      every join that declares a field is needed. */
  lemma DefaultRecordSearchNeedsEveryJoin(m: Model, raw: RawOption, k: nat)
    requires |OrEmpty(raw.select)| == 0
    requires k < |m.joins| && |m.joins[k].select| > 0
    ensures Needed(m.joins[k], OptionCheck(m, RecordScene, raw))
  {
    var a := FieldAliases(m.joins[k])[0];
    DefaultSelectCoversJoinFields(m, raw, k, a);
  }
}

=== FILE: js_map.dfy ===
/** A JavaScript `Map`, or an object with string keys, as the sequence of its
    entries in iteration order. `Set` on a present key replaces the value in
    place; on a new key it appends, so keys keep the order of their first
    insertion. */
module JsMap {
  import opened Outcomes

  type Map<V> = seq<(string, V)>

  function Keys<V>(m: Map<V>): (ks: seq<string>)
    ensures |ks| == |m|
    ensures forall i :: 0 <= i < |m| ==> ks[i] == m[i].0
  {
    seq(|m|, i requires 0 <= i < |m| => m[i].0)
  }

  ghost predicate DistinctKeys<V>(m: Map<V>) {
    forall i, j :: 0 <= i < j < |m| ==> m[i].0 != m[j].0
  }

  /** The position of `k`, if it is a key. */
  function IndexOf<V>(m: Map<V>, k: string): (r: Option<nat>)
    ensures r.Some? ==> r.value < |m| && m[r.value].0 == k
    ensures r.Some? ==> forall j :: 0 <= j < r.value ==> m[j].0 != k
    ensures r.None? <==> k !in Keys(m)
  {
    if |m| == 0 then None
    else if m[0].0 == k then Some(0)
    else match IndexOf(m[1..], k)
      case None => None
      case Some(i) => Some(i + 1)
  }

  /** `Map.prototype.get`, or property lookup on an object. */
  function Get<V>(m: Map<V>, k: string): Option<V> {
    match IndexOf(m, k)
    case None => None
    case Some(i) => Some(m[i].1)
  }

  /** `Map.prototype.set`, or property assignment on an object. */
  function Set<V>(m: Map<V>, k: string, v: V): (r: Map<V>)
    ensures DistinctKeys(m) ==> DistinctKeys(r)
    ensures Get(r, k) == Some(v)
    ensures forall k' :: k' != k ==> Get(r, k') == Get(m, k')
    ensures k in Keys(m) ==> Keys(r) == Keys(m)
    ensures k !in Keys(m) ==> Keys(r) == Keys(m) + [k]
  {
    match IndexOf(m, k)
    case None =>
      var r := m + [(k, v)];
      assert Keys(r) == Keys(m) + [k];
      IndexOfFirst(r, k, |m|);
      assert forall k' :: k' != k ==> Get(r, k') == Get(m, k') by {
        forall k' | k' != k ensures Get(r, k') == Get(m, k') {
          GetAppend(m, k', k, v);
        }
      }
      r
    case Some(i) =>
      var r := m[i := (k, v)];
      assert Keys(r) == Keys(m);
      IndexOfFirst(r, k, i);
      assert forall k' :: k' != k ==> Get(r, k') == Get(m, k') by {
        forall k' | k' != k ensures Get(r, k') == Get(m, k') {
          GetUpdate(m, i, k', v);
        }
      }
      r
  }

  /** `IndexOf` finds the first position holding the key. */
  lemma {:induction false} IndexOfFirst<V>(m: Map<V>, k: string, i: nat)
    requires i < |m| && m[i].0 == k
    requires forall j :: 0 <= j < i ==> m[j].0 != k
    ensures IndexOf(m, k) == Some(i)
    decreases i
  {
    if i > 0 {
      assert m[0].0 != k;
      IndexOfFirst(m[1..], k, i - 1);
    }
  }

  lemma GetAppend<V>(m: Map<V>, k': string, k: string, v: V)
    requires k' != k
    ensures Get(m + [(k, v)], k') == Get(m, k')
  {
    var r := m + [(k, v)];
    match IndexOf(m, k')
    case None =>
      assert k' !in Keys(r) by {
        forall j | 0 <= j < |r| ensures Keys(r)[j] != k' {
          if j < |m| { assert Keys(m)[j] == m[j].0 == r[j].0; }
        }
      }
    case Some(i) =>
      IndexOfFirst(r, k', i);
  }

  lemma GetUpdate<V>(m: Map<V>, i: nat, k': string, v: V)
    requires i < |m| && k' != m[i].0
    ensures Get(m[i := (m[i].0, v)], k') == Get(m, k')
  {
    var r := m[i := (m[i].0, v)];
    assert Keys(r) == Keys(m);
    match IndexOf(m, k')
    case None =>
    case Some(j) =>
      IndexOfFirst(r, k', j);
  }

  /** The object built by assigning the entries one after another, as a
      `forEach` with `o[k] = v` does: a repeated key keeps its first position
      and takes its last value. */
  function FromEntries<V>(es: seq<(string, V)>): Map<V>
    decreases |es|
  {
    if |es| == 0 then [] else Set(FromEntries(es[..|es| - 1]), es[|es| - 1].0, es[|es| - 1].1)
  }

  /** Entries with distinct keys are the object they build, as they are. */
  lemma {:induction false} FromEntriesDistinct<V>(es: seq<(string, V)>)
    requires DistinctKeys(es)
    ensures FromEntries(es) == es
    decreases |es|
  {
    if |es| > 0 {
      var n := |es| - 1;
      var pre := es[..n];
      assert DistinctKeys(pre);
      FromEntriesDistinct(pre);
      assert es[n].0 !in Keys(pre) by {
        forall j | 0 <= j < n ensures Keys(pre)[j] != es[n].0 {
          assert pre[j] == es[j];
        }
      }
      assert pre + [es[n]] == es;
    }
  }

  /** `es[i]` is the last entry with its key. */
  ghost predicate IsLastFor<V>(es: seq<(string, V)>, i: int)
    requires 0 <= i < |es|
  {
    forall j :: i < j < |es| ==> es[j].0 != es[i].0
  }

  /** The keys of `ks` without repeats, in order of first appearance. */
  function Unique(ks: seq<string>): (u: seq<string>)
    decreases |ks|
  {
    if |ks| == 0 then []
    else if ks[|ks| - 1] in Unique(ks[..|ks| - 1]) then Unique(ks[..|ks| - 1])
    else Unique(ks[..|ks| - 1]) + [ks[|ks| - 1]]
  }

  /** Assigning entries one by one yields an object whose keys are exactly
      the entries' keys, each once, in order of first assignment. */
  lemma {:induction false} FromEntriesKeys<V>(es: seq<(string, V)>)
    ensures DistinctKeys(FromEntries(es))
    ensures Keys(FromEntries(es)) == Unique(Keys(es))
    ensures forall k :: k in Keys(FromEntries(es)) <==> k in Keys(es)
    decreases |es|
  {
    if |es| == 0 {
      assert Keys(es) == [];
    } else {
      FromEntriesKeys(es[..|es| - 1]);
      FromEntriesKeysStep(es);
    }
  }

  lemma FromEntriesKeysStep<V>(es: seq<(string, V)>)
    requires |es| > 0
    requires var pre := es[..|es| - 1];
      && DistinctKeys(FromEntries(pre))
      && Keys(FromEntries(pre)) == Unique(Keys(pre))
      && forall k :: k in Keys(FromEntries(pre)) <==> k in Keys(pre)
    ensures DistinctKeys(FromEntries(es))
    ensures Keys(FromEntries(es)) == Unique(Keys(es))
    ensures forall k :: k in Keys(FromEntries(es)) <==> k in Keys(es)
  {
    KeysSnoc(es);
    UniqueSnoc(Keys(es));
  }

  /** The keys of a list of entries, one entry at a time. */
  lemma KeysSnoc<V>(es: seq<(string, V)>)
    requires |es| > 0
    ensures Keys(es)[..|es| - 1] == Keys(es[..|es| - 1])
    ensures Keys(es) == Keys(es[..|es| - 1]) + [es[|es| - 1].0]
  {
    var n := |es| - 1;
    assert Keys(es)[..n] == Keys(es[..n]);
  }

  lemma UniqueSnoc(ks: seq<string>)
    requires |ks| > 0
    ensures var n := |ks| - 1;
      Unique(ks) == if ks[n] in Unique(ks[..n]) then Unique(ks[..n]) else Unique(ks[..n]) + [ks[n]]
  {
  }

  /** One more assignment: the new key takes the new value, every other key
      keeps the value it had. */
  lemma FromEntriesStep<V>(es: seq<(string, V)>)
    requires |es| > 0
    ensures Get(FromEntries(es), es[|es| - 1].0) == Some(es[|es| - 1].1)
    ensures forall k :: k != es[|es| - 1].0 ==> Get(FromEntries(es), k) == Get(FromEntries(es[..|es| - 1]), k)
  {
  }

  /** The value of each key in the assembled object is the one assigned
      last. */
  lemma {:induction false} FromEntriesLast<V>(es: seq<(string, V)>, i: nat)
    requires i < |es| && IsLastFor(es, i)
    ensures Get(FromEntries(es), es[i].0) == Some(es[i].1)
    decreases |es|
  {
    var n := |es| - 1;
    FromEntriesStep(es);
    if i < n {
      var pre := es[..n];
      assert pre[i] == es[i];
      assert IsLastFor(pre, i);
      FromEntriesLast(pre, i);
    }
  }

  lemma FromEntriesGet<V>(es: seq<(string, V)>)
    ensures forall i :: 0 <= i < |es| && IsLastFor(es, i) ==> Get(FromEntries(es), es[i].0) == Some(es[i].1)
  {
    forall i | 0 <= i < |es| && IsLastFor(es, i) ensures Get(FromEntries(es), es[i].0) == Some(es[i].1) {
      FromEntriesLast(es, i);
    }
  }

  /** A key never assigned is absent from the assembled object. */
  lemma {:induction false} FromEntriesAbsent<V>(es: seq<(string, V)>, k: string)
    requires k !in Keys(es)
    ensures Get(FromEntries(es), k) == None
    decreases |es|
  {
    if |es| > 0 {
      var n := |es| - 1;
      var pre := es[..n];
      FromEntriesStep(es);
      assert Keys(es)[n] == es[n].0;
      assert k !in Keys(pre) by {
        forall j | 0 <= j < n ensures Keys(pre)[j] != k {
          assert Keys(pre)[j] == Keys(es)[j];
        }
      }
      FromEntriesAbsent(pre, k);
    }
  }

  /** The position of the last entry with key `k`. */
  lemma {:induction false} LastEntry<V>(es: seq<(string, V)>, k: string) returns (i: nat)
    requires k in Keys(es)
    ensures i < |es| && es[i].0 == k && IsLastFor(es, i)
    decreases |es|
  {
    var n := |es| - 1;
    if es[n].0 == k {
      i := n;
    } else {
      var pre := es[..n];
      KeyInPrefix(es, k);
      i := LastEntry(pre, k);
      assert es[i] == pre[i];
      assert forall j :: i < j < n ==> es[j] == pre[j];
    }
  }

  /** Every key of the assembled object takes its value from the last entry
      with that key. */
  lemma FromEntriesValue<V>(es: seq<(string, V)>, k: string) returns (i: nat)
    requires k in Keys(es)
    ensures i < |es| && es[i].0 == k && IsLastFor(es, i)
    ensures Get(FromEntries(es), k) == Some(es[i].1)
  {
    i := LastEntry(es, k);
    FromEntriesLast(es, i);
  }

  /** Every entry of the assembled object is one of the assigned entries. */
  lemma {:induction false} FromEntriesFrom<V>(es: seq<(string, V)>, e: (string, V))
    requires e in FromEntries(es)
    ensures e in es
    decreases |es|
  {
    var n := |es| - 1;
    var pre := es[..n];
    var m := FromEntries(pre);
    match IndexOf(m, es[n].0)
    case None =>
      if e != es[n] {
        assert e in m;
        FromEntriesFrom(pre, e);
      }
    case Some(i) =>
      if e != es[n] {
        var j :| 0 <= j < |m| && m[i := (es[n].0, es[n].1)][j] == e;
        assert j != i && m[j] == e;
        FromEntriesFrom(pre, e);
      }
  }

  lemma KeyInPrefix<V>(es: seq<(string, V)>, k: string)
    requires k in Keys(es) && es[|es| - 1].0 != k
    ensures k in Keys(es[..|es| - 1])
  {
    var j :| 0 <= j < |es| && Keys(es)[j] == k;
    assert Keys(es[..|es| - 1])[j] == k;
  }
}

=== FILE: js_string.dfy ===
/** The few string facts the model needs: decimal rendering of counters
    (JavaScript `String(n)` for a non-negative integer) and digit suffixes. */
module JsString {

  predicate IsDigit(c: char) {
    '0' <= c <= '9'
  }

  predicate AllDigits(s: string) {
    forall i :: 0 <= i < |s| ==> IsDigit(s[i])
  }

  predicate EndsWithDigit(s: string) {
    |s| > 0 && IsDigit(s[|s| - 1])
  }

  function DigitChar(d: nat): (c: char)
    requires d < 10
    ensures IsDigit(c)
    ensures c as int - '0' as int == d
  {
    ('0' as int + d) as char
  }

  /** The decimal digits of `n`, most significant first, no leading zero. */
  function DecimalString(n: nat): (s: string)
    ensures |s| > 0 && AllDigits(s)
    ensures |s| == 1 <==> n < 10
    decreases n
  {
    if n < 10 then [DigitChar(n)] else DecimalString(n / 10) + [DigitChar(n % 10)]
  }

  /** Different numbers render differently, so a counter suffix names its
      occurrence unambiguously. */
  lemma {:induction false} DecimalStringDistinct(a: nat, b: nat)
    requires a != b
    ensures DecimalString(a) != DecimalString(b)
    decreases a
  {
    var sa, sb := DecimalString(a), DecimalString(b);
    if a < 10 && b < 10 {
      assert sa[0] == DigitChar(a) && sb[0] == DigitChar(b);
    } else if a >= 10 && b >= 10 {
      assert sa == DecimalString(a / 10) + [DigitChar(a % 10)];
      assert sb == DecimalString(b / 10) + [DigitChar(b % 10)];
      assert sa[|sa| - 1] == DigitChar(a % 10) && sb[|sb| - 1] == DigitChar(b % 10);
      assert sa[..|sa| - 1] == DecimalString(a / 10) && sb[..|sb| - 1] == DecimalString(b / 10);
      if a % 10 == b % 10 {
        DecimalStringDistinct(a / 10, b / 10);
      }
    }
  }

  /** `s` with its trailing run of digits removed. */
  function StripDigits(s: string): (r: string)
    ensures !EndsWithDigit(r)
    decreases |s|
  {
    if EndsWithDigit(s) then StripDigits(s[..|s| - 1]) else s
  }

  lemma {:induction false} StripDigitSuffix(a: string, d: string)
    requires !EndsWithDigit(a) && AllDigits(d)
    ensures StripDigits(a + d) == a
    decreases |d|
  {
    if |d| == 0 {
      assert a + d == a;
    } else {
      var s := a + d;
      assert s[|s| - 1] == d[|d| - 1];
      assert s[..|s| - 1] == a + d[..|d| - 1];
      StripDigitSuffix(a, d[..|d| - 1]);
    }
  }
}

=== FILE: knex.dfy ===
/** The query builder, reduced to the list of calls made on it. A search
    produces the sequence of `Clause`s it applies, in call order; rendering
    them to SQL text belongs to the builder library and is not modelled. */
module Knex {

  /** A JavaScript value as it reaches the builder: the scalar types the
      filter language accepts (`number | string | Date | boolean`), arrays,
      and plain objects given as their entries in iteration order. */
  datatype Value =
    | Num(n: int)
    | Str(s: string)
    | Bool(b: bool)
    | Date(time: int)
    | Arr(items: seq<Value>)
    | Obj(entries: seq<(string, Value)>)

  /** One call on the builder. */
  datatype Clause =
    | Where(field: string, op: string, value: Value)   // where(field, op, value)
    | WhereNull(field: string)                         // whereNull(field)
    | WhereNotNull(field: string)                      // whereNotNull(field)
    | WhereIn(field: string, value: Value)             // whereIn(field, value)
    | WhereNotIn(field: string, value: Value)          // whereNotIn(field, value)
    | WhereBetween(field: string, value: Value)        // whereBetween(field, value)
    | OrScope(scope: seq<Clause>)                      // orWhere(q => ...scope)
    | LeftJoin(table: string, alias: string, leftRef: string, rightRef: string)
                                                       // leftJoin(`table as alias`, leftRef, rightRef)
    | OrderBy(field: string, direction: string)        // orderBy(field, direction)
    | Select(columns: seq<string>)                     // select(columns)
    | Offset(offset: int)                              // offset(n)
    | Limit(limit: int)                                // limit(n)
    | Count(column: string)                            // count(column)

  /** A predicate on a single field. */
  predicate IsPredicate(c: Clause) {
    c.Where? || c.WhereNull? || c.WhereNotNull? || c.WhereIn? || c.WhereNotIn? || c.WhereBetween?
  }
}

=== FILE: outcomes.dfy ===
/** Optional values and results with an error message, used where the
    source returns `undefined` or throws an `Error`. */
module Outcomes {

  /** A value that may be absent (JavaScript `undefined`). */
  datatype Option<+T> = None | Some(value: T)

  /** The outcome of a step that may throw: `Err` carries the message of
      the `Error` the source raises. */
  datatype Result<+T> = Ok(value: T) | Err(error: string)
}

=== FILE: scenarios.dfy ===
/** The searches of the repository's test suite, on its `user` model with a
    `phone` join, at the level of builder calls. */
module Scenarios {
  import opened Outcomes
  import opened Knex
  import opened JoinConfig
  import opened SearchOptions
  import opened JoinResolver
  import opened TableModel
  import JsMap
  import Where

  /** Users, with each user's phone number joined in as `user_phone`. */
  const PhoneJoin := Join([Hop("phone", "id", "user_id")], [("user_phone", "phone")])
  const UserModel := Model("user", [PhoneJoin])

  /** The join every search touching `user_phone` makes. */
  const PhoneClause := LeftJoin("phone", "phone", "user.id", "phone.user_id")

  /** The default selection: every user column, and the phone under its
      field alias. */
  const DefaultColumns := ["user.*", "phone.phone as user_phone"]

  /** The left-join step once `user_phone` is referenced. */
  lemma PhoneJoined(opt: SearchOpt)
    requires Referenced("user_phone", opt)
    ensures LeftJoinAll(UserModel, opt).joins == [PhoneClause]
    ensures LeftJoinAll(UserModel, opt).fieldTable == map["user_phone" := "phone"]
  {
    assert FieldAliases(PhoneJoin)[0] == "user_phone";
    assert Needed(PhoneJoin, opt);
    var st0 := Start("user");
    var hop := PhoneJoin.path[0];
    assert HopKey("user", hop) !in st0.memo;
    assert CountOf(st0.counts, "phone") == 0;
    assert "user" + "." + "id" == "user.id";
    assert "phone" + "." + "user_id" == "phone.user_id";
    assert st0.counts["phone" := 1] == map["user" := 1, "phone" := 1];
    var st1 := JoinState(map["user" := 1, "phone" := 1], map[HopKey("user", hop) := "phone"], map[], [PhoneClause]);
    assert hop == Hop("phone", "id", "user_id");
    var res := JoinHop(st0, "user", hop);
    assert res.1 == "phone";
    assert res.0.joins == [PhoneClause];
    assert res.0.counts == st1.counts;
    assert res.0.memo == st1.memo;
    assert res.0.fieldTable == st1.fieldTable;
    assert res == (st1, "phone");
    assert PhoneJoin.path[1..] == [];
    assert WalkPath(st0, "user", PhoneJoin.path) == (st1, "phone");
    assert FieldAliases(PhoneJoin) == ["user_phone"];
    var ft := RecordFields(map[], ["user_phone"], "phone");
    assert ft == map["user_phone" := "phone"];
    var r := ResolveJoin(st0, "user", opt, PhoneJoin);
    assert r == st1.(fieldTable := ft);
    assert UserModel.joins[1..] == [];
    assert LeftJoinAll(UserModel, opt) == ResolveAll(r, "user", opt, []);
  }

  /** The join-field information of the model: `user_phone` is the `phone`
      column at the end of the one-hop path. */
  lemma JoinInfo()
    ensures JoinFieldInfo(UserModel) == [("user_phone", FieldInfo("phone", PhoneJoin.path))]
  {
    var e := ("user_phone", FieldInfo("phone", PhoneJoin.path));
    assert Declared(PhoneJoin) == [e];
    assert UserModel.joins[..0] == [];
    assert Declarations(UserModel.joins) == [e];
    var none: JsMap.Map<FieldInfo> := [];
    assert [e][..0] == none;
    assert JsMap.IndexOf(none, e.0) == None;
    assert JsMap.FromEntries([e]) == JsMap.Set(none, e.0, e.1) == [e];
  }

  /** `id` is a column of the base table, before and after the phone join. */
  lemma QualifiedId(m: Model, ft: map<string, string>, f: string)
    requires m == UserModel && f == "id"
    requires ft == map[] || ft == map["user_phone" := "phone"]
    ensures FieldQualifier.Qualify(m, ft, f) == "user.id"
    ensures SelectColumn(m, ft, f) == "user.id as id"
  {
    JoinInfo();
    assert '.' !in f && '*' !in f && f !in ft;
    assert JsMap.IndexOf(JoinFieldInfo(m), f) == None;
    assert "user" + "." + "id" == "user.id";
    assert "user.id" + " as " + "id" == "user.id as id";
  }

  /** `user_phone` is the `phone` column of the joined phone table. */
  lemma QualifiedPhone(m: Model, ft: map<string, string>, f: string)
    requires m == UserModel && f == "user_phone"
    requires ft == map["user_phone" := "phone"]
    ensures FieldQualifier.Qualify(m, ft, f) == "phone.phone"
    ensures SelectColumn(m, ft, f) == "phone.phone as user_phone"
  {
    PhoneColumn(m, ft, f);
    SelectedAs(m, ft, f, "phone.phone");
    PhoneAs();
  }

  /** A literal equality, proved on its own: in the scenario lemma's context,
      which holds the unfolded search, it costs the solver far more. */
  lemma PhoneAs()
    ensures "phone.phone" + " as " + "user_phone" == "phone.phone as user_phone"
  {
  }

  /** A field without `*` is selected under its own name. */
  lemma SelectedAs(m: Model, ft: map<string, string>, f: string, q: string)
    requires '*' !in f && FieldQualifier.Qualify(m, ft, f) == q
    ensures SelectColumn(m, ft, f) == q + " as " + f
  {
  }

  lemma PhoneColumn(m: Model, ft: map<string, string>, f: string)
    requires m == UserModel && f == "user_phone"
    requires ft == map["user_phone" := "phone"]
    ensures FieldQualifier.Qualify(m, ft, f) == "phone.phone"
  {
    JoinInfo();
    assert '.' !in f && f in ft && ft[f] == "phone";
    assert JsMap.IndexOf(JoinFieldInfo(m), f) == Some(0);
    assert "phone" + "." + "phone" == "phone.phone";
  }

  /** The record tail with the default selection and no ordering. */
  lemma DefaultTail(opt: SearchOpt)
    requires opt.offset == 0 && opt.limit == 1000 && opt.select == ["user.*", "user_phone"] && opt.orderBy == []
    ensures Tail(UserModel, RecordScene, map["user_phone" := "phone"], opt) ==
      [Select(DefaultColumns), Offset(0), Limit(1000)]
  {
    var ft := map["user_phone" := "phone"];
    QualifiedPhone(UserModel, ft, "user_phone");
    var tail := RecordClauses(UserModel, ft, opt);
    DefaultSelection(tail[0], opt.select, ft);
  }

  /** The select clause of the default selection. */
  lemma DefaultSelection(c: Clause, select: seq<string>, ft: map<string, string>)
    requires select == ["user.*", "user_phone"] && ft == map["user_phone" := "phone"]
    requires c.Select? && |c.columns| == 2
    requires forall i :: 0 <= i < 2 ==> c.columns[i] == SelectColumn(UserModel, ft, select[i])
    ensures c == Select(DefaultColumns)
  {
    QualifiedPhone(UserModel, ft, select[1]);
    assert '*' in select[0];
    assert c.columns[0] == "user.*";
    assert c.columns[1] == "phone.phone as user_phone";
    assert c.columns == DefaultColumns;
  }

  lemma DefaultOptions(raw: RawOption)
    requires raw.offset.None? && raw.limit.None? && raw.select.None?
    ensures OptionCheck(UserModel, RecordScene, raw) ==
      SearchOpt(0, 1000, ["user.*", "user_phone"], OrEmpty(raw.where), OrEmpty(raw.orderBy))
  {
    JoinInfo();
    assert "user" + ".*" == "user.*";
    assert JsMap.Keys(JoinFieldInfo(UserModel)) == ["user_phone"];
    assert DefaultSelect(UserModel) == ["user.*", "user_phone"];
  }

  /** A record search selecting `user_phone` joins the phone table. */
  lemma PhoneSelected(opt: SearchOpt)
    requires opt.select == ["user.*", "user_phone"]
    ensures LeftJoinAll(UserModel, opt).joins == [PhoneClause]
    ensures LeftJoinAll(UserModel, opt).fieldTable == map["user_phone" := "phone"]
  {
    assert Referenced("user_phone", opt);
    PhoneJoined(opt);
  }

  /** A record search with the default selection and no ordering: the
      phone join, the where predicates, then the first page of 1000. */
  lemma DefaultRecordSearch(m: Model, raw: RawOption, preds: seq<Clause>)
    requires m == UserModel && raw.offset.None? && raw.limit.None? && raw.select.None? && raw.orderBy.None?
    requires SearchWhere(UserModel, map["user_phone" := "phone"], OrEmpty(raw.where)) == Ok(preds)
    ensures Search(m, RecordScene, raw) == Ok([PhoneClause] + preds + [Select(DefaultColumns), Offset(0), Limit(1000)])
  {
    var opt := SearchOpt(0, 1000, ["user.*", "user_phone"], OrEmpty(raw.where), []);
    DefaultOptions(raw);
    PhoneSelected(opt);
    DefaultTail(opt);
    SearchSteps(m, RecordScene, raw, opt, LeftJoinAll(m, opt), preds, [Select(DefaultColumns), Offset(0), Limit(1000)]);
  }

  /** No options: every user column and the phone, first page of 1000. */
  lemma DefaultSearch(m: Model, raw: RawOption)
    requires m == UserModel && raw == NoOptions
    ensures Search(m, RecordScene, raw) == Ok([PhoneClause, Select(DefaultColumns), Offset(0), Limit(1000)])
  {
    NoConditions(map["user_phone" := "phone"]);
    var none: seq<Clause> := [];
    DefaultRecordSearch(m, raw, none);
    Unspliced(PhoneClause, none, Select(DefaultColumns), Offset(0), Limit(1000));
  }

  /** A literal equality, proved on its own: in the scenario lemma's context,
      which holds the unfolded search, it costs the solver far more. */
  lemma Unspliced(a: Clause, none: seq<Clause>, b: Clause, c: Clause, d: Clause)
    requires none == []
    ensures [a] + none + [b, c, d] == [a, b, c, d]
  {
  }

  lemma NoConditions(ft: map<string, string>)
    ensures SearchWhere(UserModel, ft, []) == Ok([])
  {
  }

  /** `where: {id: 1}` compares the base table's column. */
  lemma WhereSearch(m: Model, raw: RawOption)
    requires m == UserModel && raw == NoOptions.(where := Some([("id", Num(1))]))
    ensures Search(m, RecordScene, raw) ==
      Ok([PhoneClause, Where("user.id", "=", Num(1)), Select(DefaultColumns), Offset(0), Limit(1000)])
  {
    var preds := [Where("user.id", "=", Num(1))];
    IdEqualsOne(map["user_phone" := "phone"]);
    DefaultRecordSearch(m, raw, preds);
    Spliced5(PhoneClause, preds[0], Select(DefaultColumns), Offset(0), Limit(1000));
  }

  /** A literal equality, proved on its own: in the scenario lemma's context,
      which holds the unfolded search, it costs the solver far more. */
  lemma Spliced5(a: Clause, b: Clause, c: Clause, d: Clause, e: Clause)
    ensures [a] + [b] + [c, d, e] == [a, b, c, d, e]
  {
  }

  lemma IdEqualsOne(ft: map<string, string>)
    requires ft == map["user_phone" := "phone"]
    ensures SearchWhere(UserModel, ft, [("id", Num(1))]) == Ok([Where("user.id", "=", Num(1))])
  {
    var w := [("id", Num(1))];
    var e := ("user.id", Num(1));
    assert FieldQualifier.QualifiedEntries(UserModel, ft, w) == [e] by {
      QualifiedId(UserModel, ft, "id");
    }
    SingleEntry(e);
    OneScalar(FieldQualifier.QualifyGroup(UserModel, ft, w), "user.id", Num(1));
  }

  /** An object with one property. */
  lemma SingleEntry(e: (string, Value))
    ensures JsMap.FromEntries([e]) == [e]
  {
    var none: Where.Group := [];
    assert [e][..0] == none;
    assert JsMap.IndexOf(none, e.0) == None;
    assert JsMap.FromEntries([e]) == JsMap.Set(none, e.0, e.1);
  }

  /** `select: ['id']` joins nothing and reads the base table's column
      under its own name. */
  lemma SelectSearch(m: Model, raw: RawOption)
    requires m == UserModel && raw == NoOptions.(select := Some(["id"]))
    ensures Search(m, RecordScene, raw) == Ok([Select(["user.id as id"]), Offset(0), Limit(1000)])
  {
    var opt := SearchOpt(0, 1000, ["id"], [], []);
    var ft: map<string, string> := map[];
    var tail := [Select(["user.id as id"]), Offset(0), Limit(1000)];
    IdSelected(m, raw, opt);
    NoConditions(ft);
    IdTail(m, ft, opt);
    SearchSteps(m, RecordScene, raw, opt, Start("user"), [], tail);
  }

  /** Selecting only `id` references no join field. */
  lemma IdSelected(m: Model, raw: RawOption, opt: SearchOpt)
    requires m == UserModel && raw == NoOptions.(select := Some(["id"]))
    requires opt == SearchOpt(0, 1000, ["id"], [], [])
    ensures OptionCheck(m, RecordScene, raw) == opt
    ensures LeftJoinAll(m, opt) == Start("user")
  {
    assert FieldAliases(PhoneJoin) == ["user_phone"];
    assert !Referenced("user_phone", opt);
    NoJoinWithoutReference(m, RecordScene, raw);
  }

  lemma IdTail(m: Model, ft: map<string, string>, opt: SearchOpt)
    requires m == UserModel && ft == map[] && opt == SearchOpt(0, 1000, ["id"], [], [])
    ensures Tail(m, RecordScene, ft, opt) == [Select(["user.id as id"]), Offset(0), Limit(1000)]
  {
    QualifiedId(m, ft, "id");
    var cs := RecordClauses(m, ft, opt);
    Three(cs, Select(["user.id as id"]), Offset(0), Limit(1000));
  }

  /** A literal equality, proved on its own: in the scenario lemma's context,
      which holds the unfolded search, it costs the solver far more. */
  lemma Three(cs: seq<Clause>, a: Clause, b: Clause, c: Clause)
    requires |cs| == 3 && cs[0] == a && cs[1] == b && cs[2] == c
    ensures cs == [a, b, c]
  {
  }

  /** `orderBy: [['id', 'asc']]` orders by the base table's column. */
  lemma OrderBySearch(m: Model, raw: RawOption)
    requires m == UserModel && raw == NoOptions.(orderBy := Some([("id", "asc")]))
    ensures Search(m, RecordScene, raw) ==
      Ok([PhoneClause, OrderBy("user.id", "asc"), Select(DefaultColumns), Offset(0), Limit(1000)])
  {
    var opt := SearchOpt(0, 1000, ["user.*", "user_phone"], [], [("id", "asc")]);
    var ft := map["user_phone" := "phone"];
    var tail := [OrderBy("user.id", "asc"), Select(DefaultColumns), Offset(0), Limit(1000)];
    DefaultOptions(raw);
    PhoneSelected(opt);
    NoConditions(ft);
    OrderByIdTail(opt);
    SearchSteps(m, RecordScene, raw, opt, LeftJoinAll(m, opt), [], tail);
    Unspliced4(PhoneClause, [], tail[0], tail[1], tail[2], tail[3]);
  }

  /** A literal equality, proved on its own: in the scenario lemma's context,
      which holds the unfolded search, it costs the solver far more. */
  lemma Unspliced4(a: Clause, none: seq<Clause>, b: Clause, c: Clause, d: Clause, e: Clause)
    requires none == []
    ensures [a] + none + [b, c, d, e] == [a, b, c, d, e]
  {
  }

  lemma OrderByIdTail(opt: SearchOpt)
    requires opt == SearchOpt(0, 1000, ["user.*", "user_phone"], [], [("id", "asc")])
    ensures Tail(UserModel, RecordScene, map["user_phone" := "phone"], opt) ==
      [OrderBy("user.id", "asc"), Select(DefaultColumns), Offset(0), Limit(1000)]
  {
    var ft := map["user_phone" := "phone"];
    var cs := RecordClauses(UserModel, ft, opt);
    OrderById(cs[0], ft, opt);
    DefaultSelection(cs[1], opt.select, ft);
    Four(cs, OrderBy("user.id", "asc"), Select(DefaultColumns), Offset(0), Limit(1000));
  }

  /** A literal equality, proved on its own: in the scenario lemma's context,
      which holds the unfolded search, it costs the solver far more. */
  lemma Four(cs: seq<Clause>, a: Clause, b: Clause, c: Clause, d: Clause)
    requires |cs| == 4 && cs[0] == a && cs[1] == b && cs[2] == c && cs[3] == d
    ensures cs == [a, b, c, d]
  {
  }

  lemma OrderById(c: Clause, ft: map<string, string>, opt: SearchOpt)
    requires ft == map["user_phone" := "phone"] && opt.orderBy == [("id", "asc")]
    requires c.OrderBy? && c.field == FieldQualifier.Qualify(UserModel, ft, opt.orderBy[0].0) && c.direction == opt.orderBy[0].1
    ensures c == OrderBy("user.id", "asc")
  {
    QualifiedId(UserModel, ft, "id");
  }

  /** A count filtered on the joined field joins the phone table for the
      where clause alone and counts the users. */
  lemma CountOnJoinField(m: Model, raw: RawOption)
    requires m == UserModel && raw == NoOptions.(where := Some([("user_phone", Obj([("$like", Str("159%"))]))]))
    ensures Search(m, CountScene, raw) ==
      Ok([PhoneClause, Where("phone.phone", "LIKE", Str("159%")), Count("user.id as count")])
  {
    var cond := Obj([("$like", Str("159%"))]);
    var opt := SearchOpt(0, 1000, [], [("user_phone", cond)], []);
    assert OptionCheck(m, CountScene, raw) == opt;
    var ft := map["user_phone" := "phone"];
    PhoneFiltered(opt);
    var preds := [Where("phone.phone", "LIKE", Str("159%"))];
    PhoneLike(ft, cond);
    var tail := [Count("user.id as count")];
    UserCountTail(m, ft, opt);
    SearchSteps(m, CountScene, raw, opt, LeftJoinAll(m, opt), preds, tail);
    Spliced3(PhoneClause, preds[0], tail[0]);
  }

  /** A literal equality, proved on its own: in the scenario lemma's context,
      which holds the unfolded search, it costs the solver far more. */
  lemma Spliced3(a: Clause, b: Clause, c: Clause)
    ensures [a] + [b] + [c] == [a, b, c]
  {
  }

  lemma UserCountTail(m: Model, ft: map<string, string>, opt: SearchOpt)
    requires m == UserModel
    ensures Tail(m, CountScene, ft, opt) == [Count("user.id as count")]
  {
    assert "user" + ".id as count" == "user.id as count";
  }

  /** A search with a where key `user_phone` joins the phone table. */
  lemma PhoneFiltered(opt: SearchOpt)
    requires |opt.where| > 0 && opt.where[0].0 == "user_phone"
    ensures LeftJoinAll(UserModel, opt).joins == [PhoneClause]
    ensures LeftJoinAll(UserModel, opt).fieldTable == map["user_phone" := "phone"]
  {
    assert JsMap.Keys(opt.where)[0] == "user_phone";
    assert Referenced("user_phone", opt);
    PhoneJoined(opt);
  }

  lemma PhoneLike(ft: map<string, string>, cond: Value)
    requires ft == map["user_phone" := "phone"] && cond == Obj([("$like", Str("159%"))])
    ensures SearchWhere(UserModel, ft, [("user_phone", cond)]) == Ok([Where("phone.phone", "LIKE", Str("159%"))])
  {
    var g := [("phone.phone", cond)];
    PhoneQualified(ft, cond);
    LikeCondition("phone.phone", "159%");
    assert g[1..] == [];
    assert Where.ParseWhere(g[1..]) == Ok([]);
    assert Where.ParseWhere(g) == Ok([Where("phone.phone", "LIKE", Str("159%"))] + []);
  }

  lemma PhoneQualified(ft: map<string, string>, cond: Value)
    requires ft == map["user_phone" := "phone"]
    ensures FieldQualifier.QualifyGroup(UserModel, ft, [("user_phone", cond)]) == [("phone.phone", cond)]
  {
    var e := ("phone.phone", cond);
    assert FieldQualifier.QualifiedEntries(UserModel, ft, [("user_phone", cond)]) == [e] by {
      QualifiedPhone(UserModel, ft, "user_phone");
    }
    SingleEntry(e);
  }

  /** `{$like: pattern}` on a field. */
  lemma LikeCondition(field: string, pattern: string)
    ensures Where.ParseCondition(field, Obj([("$like", Str(pattern))])) == Ok([Where(field, "LIKE", Str(pattern))])
  {
    Where.SingleOperator(field, "$like", Str(pattern), Where.Like);
  }

  /** Two groups at the translator's level become two OR scopes. */
  lemma OrGroups()
    ensures Where.ParseToSqlBuilder(Where.Groups([[("user.id", Num(1))], [("user.id", Num(2))]])) ==
      Ok([OrScope([Where("user.id", "=", Num(1))]), OrScope([Where("user.id", "=", Num(2))])])
  {
    var g1, g2 := [("user.id", Num(1))], [("user.id", Num(2))];
    var p1, p2 := [Where("user.id", "=", Num(1))], [Where("user.id", "=", Num(2))];
    OneScalar(g1, "user.id", Num(1));
    OneScalar(g2, "user.id", Num(2));
    var r := Where.OrScopes([g1, g2]);
    assert r.value[0] == OrScope(p1) && r.value[1] == OrScope(p2);
    assert r.value == [OrScope(p1), OrScope(p2)];
  }

  /** A group of one scalar entry is one equality. */
  lemma OneScalar(g: Where.Group, field: string, v: Value)
    requires g == [(field, v)] && Where.IsScalar(v)
    ensures Where.ParseWhere(g) == Ok([Where(field, "=", v)])
  {
    Where.ScalarGroup(g);
    var r := Where.ParseWhere(g).value;
    assert |r| == 1 && r[0] == Where(field, "=", v);
    assert r == [Where(field, "=", v)];
  }
}

=== FILE: search_options.dfy ===
/** The options of one search and how missing ones are filled in. */
module SearchOptions {
  import opened Outcomes
  import opened JoinConfig
  import JsMap
  import Where

  /** What a search returns: rows, or their count. */
  datatype Scene = CountScene | RecordScene

  /** The options as the caller passes them; every field may be missing. */
  datatype RawOption = RawOption(
    offset: Option<int>,
    limit: Option<int>,
    select: Option<seq<string>>,
    where: Option<Where.Group>,
    orderBy: Option<seq<(string, string)>>)

  /** A search with no options at all. */
  const NoOptions := RawOption(None, None, None, None, None)

  /** The options after defaulting. */
  datatype SearchOpt = SearchOpt(
    offset: int,
    limit: int,
    select: seq<string>,
    where: Where.Group,
    orderBy: seq<(string, string)>)

  const DefaultLimit := 1000

  /** JavaScript `x || d` on a number that may be missing: both `undefined`
      and `0` are falsy and give way to `d`. */
  function OrNumber(x: Option<int>, d: int): (r: int)
    ensures r == d || (x.Some? && r == x.value && r != 0)
    ensures x.Some? && x.value != 0 ==> r == x.value
  {
    match x
    case Some(v) => if v != 0 then v else d
    case None => d
  }

  /** JavaScript `x || []` on a sequence: an array is always truthy. */
  function OrEmpty<T>(x: Option<seq<T>>): (r: seq<T>)
    ensures x.Some? ==> r == x.value
    ensures x.None? ==> r == []
  {
    match x
    case Some(v) => v
    case None => []
  }

  /** The select list a record search uses when none is given: every column
      of the base table, then every declared join field. */
  function DefaultSelect(m: Model): (s: seq<string>)
    ensures |s| > 0 && s[0] == m.table + ".*"
    ensures s == [m.table + ".*"] + JsMap.Unique(JsMap.Keys(Declarations(m.joins)))
    ensures forall a :: a in s[1..] <==> exists k :: 0 <= k < |m.joins| && a in FieldAliases(m.joins[k])
  {
    var s := [m.table + ".*"] + JsMap.Keys(JoinFieldInfo(m));
    assert s[1..] == JsMap.Keys(JoinFieldInfo(m));
    assert forall a :: a in s[1..] <==> exists k :: 0 <= k < |m.joins| && a in FieldAliases(m.joins[k]) by {
      forall a ensures a in s[1..] <==> exists k :: 0 <= k < |m.joins| && a in FieldAliases(m.joins[k]) {
        JoinFieldInfoDomain(m, a);
      }
    }
    s
  }

  /** `_searchOptionCheck`: fills in the defaults. A count search never
      selects or orders; a record search with nothing to select selects
      everything. */
  function OptionCheck(m: Model, scene: Scene, raw: RawOption): (opt: SearchOpt)
    ensures opt.limit != 0
    ensures opt.offset == OrNumber(raw.offset, 0) && opt.limit == OrNumber(raw.limit, DefaultLimit)
    ensures opt.where == OrEmpty(raw.where)
    ensures scene == CountScene ==> opt.select == [] && opt.orderBy == []
    ensures scene == RecordScene ==> opt.orderBy == OrEmpty(raw.orderBy) && |opt.select| > 0
    ensures scene == RecordScene && |OrEmpty(raw.select)| > 0 ==> opt.select == raw.select.value
    ensures scene == RecordScene && |OrEmpty(raw.select)| == 0 ==> opt.select == DefaultSelect(m)
  {
    var select := OrEmpty(raw.select);
    var where := OrEmpty(raw.where);
    var offset := OrNumber(raw.offset, 0);
    var limit := OrNumber(raw.limit, DefaultLimit);
    var orderBy := OrEmpty(raw.orderBy);
    match scene
    case CountScene => SearchOpt(offset, limit, [], where, [])
    case RecordScene =>
      SearchOpt(offset, limit, if |select| == 0 then DefaultSelect(m) else select, where, orderBy)
  }

  /** The options after defaulting, passed back in as given options. */
  function AsRaw(opt: SearchOpt): RawOption {
    RawOption(Some(opt.offset), Some(opt.limit), Some(opt.select), Some(opt.where), Some(opt.orderBy))
  }

  /** Defaulting is idempotent: options that have been filled in are left as
      they are by a second pass. */
  lemma OptionCheckIdempotent(m: Model, scene: Scene, raw: RawOption)
    ensures OptionCheck(m, scene, AsRaw(OptionCheck(m, scene, raw))) == OptionCheck(m, scene, raw)
  {
  }

  /** The default record search selects every declared join field. */
  lemma DefaultSelectCoversJoinFields(m: Model, raw: RawOption, k: nat, a: string)
    requires |OrEmpty(raw.select)| == 0
    requires k < |m.joins| && a in FieldAliases(m.joins[k])
    ensures a in OptionCheck(m, RecordScene, raw).select
  {
    JoinFieldInfoDomain(m, a);
  }
}

=== FILE: table_model.dfy ===
/** One search of a table model, from the options the caller passes to the
    builder calls it makes: defaulting, left joins, the where group with its
    keys qualified, then the ordering, selection and window of a record
    search or the count of a count search. */
module TableModel {
  import opened Outcomes
  import opened Knex
  import opened JoinConfig
  import opened SearchOptions
  import opened JoinResolver
  import opened FieldQualifier
  import JsMap
  import Where

  /** `_searchWhere`: the where group with its keys qualified, translated
      as one group. Every condition it accepts becomes predicates on a
      qualified where key; a failure is the failure of one of the group's
      own conditions. */
  function SearchWhere(m: Model, ft: map<string, string>, where: Where.Group): (r: Result<seq<Clause>>)
    ensures (forall i :: 0 <= i < |where| ==> Where.ValidCondition(where[i].1)) ==> r.Ok?
    ensures r.Ok? ==> forall c :: c in r.value ==>
      && IsPredicate(c) && '.' in c.field
      && exists i :: 0 <= i < |where| && c.field == Qualify(m, ft, where[i].0)
    ensures r.Err? ==> exists i ::
      && 0 <= i < |where| && !Where.ValidCondition(where[i].1)
      && r == Where.ParseCondition(Qualify(m, ft, where[i].0), where[i].1)
  {
    SearchWhereFacts(m, ft, where);
    Where.ParseToSqlBuilder(Where.Single(QualifyGroup(m, ft, where)))
  }

  lemma SearchWhereFacts(m: Model, ft: map<string, string>, where: Where.Group)
    ensures var r := Where.ParseToSqlBuilder(Where.Single(QualifyGroup(m, ft, where)));
      && ((forall i :: 0 <= i < |where| ==> Where.ValidCondition(where[i].1)) ==> r.Ok?)
      && (r.Ok? ==> forall c :: c in r.value ==>
        && IsPredicate(c) && '.' in c.field
        && exists i :: 0 <= i < |where| && c.field == Qualify(m, ft, where[i].0))
      && (r.Err? ==> exists i ::
        && 0 <= i < |where| && !Where.ValidCondition(where[i].1)
        && r == Where.ParseCondition(Qualify(m, ft, where[i].0), where[i].1))
  {
    var g := QualifyGroup(m, ft, where);
    var r := Where.ParseToSqlBuilder(Where.Single(g));
    QualifiedFrom(m, ft, where);
    if forall i :: 0 <= i < |where| ==> Where.ValidCondition(where[i].1) {
      forall j | 0 <= j < |g| ensures Where.ParseCondition(g[j].0, g[j].1).Ok? {
        assert g[j] in g;
      }
    }
    if r.Err? {
      var j :| 0 <= j < |g| && r == Where.ParseCondition(g[j].0, g[j].1);
      assert g[j] in g;
    }
  }

  /** When no two where keys qualify to the same reference, the where step
      makes exactly the translator's calls for the where entries with their
      keys qualified, in entry order. */
  lemma SearchWhereEntries(m: Model, ft: map<string, string>, where: Where.Group)
    requires forall i, j :: 0 <= i < j < |where| ==> Qualify(m, ft, where[i].0) != Qualify(m, ft, where[j].0)
    ensures SearchWhere(m, ft, where) == Where.ParseWhere(QualifiedEntries(m, ft, where))
  {
    var es := QualifiedEntries(m, ft, where);
    assert JsMap.DistinctKeys(es);
    JsMap.FromEntriesDistinct(es);
  }

  /** Each entry of the qualified group is a where entry with its key
      qualified. */
  lemma QualifiedFrom(m: Model, ft: map<string, string>, where: Where.Group)
    ensures forall e :: e in QualifyGroup(m, ft, where) ==>
      exists i :: 0 <= i < |where| && e == (Qualify(m, ft, where[i].0), where[i].1)
  {
    var es := QualifiedEntries(m, ft, where);
    forall e | e in QualifyGroup(m, ft, where)
      ensures exists i :: 0 <= i < |where| && e == (Qualify(m, ft, where[i].0), where[i].1)
    {
      JsMap.FromEntriesFrom(es, e);
      var i :| 0 <= i < |es| && es[i] == e;
    }
  }

  /** A selected name: one containing `*` passes through, any other is read
      from its qualified column under its own name. */
  function SelectColumn(m: Model, ft: map<string, string>, f: string): (s: string)
    ensures '*' in f ==> s == f
    ensures '*' !in f ==> exists q :: '.' in q && s == q + " as " + f
    ensures '*' !in f ==> s == Qualify(m, ft, f) + " as " + f
    ensures '*' !in f && '.' in f ==> s == f + " as " + f
  {
    if '*' in f then f else Qualify(m, ft, f) + " as " + f
  }

  /** The tail of a record search (`_searchRecord`): the orderings in the
      order given, each on a qualified column with its direction as given,
      then the selection, offset and limit. */
  function RecordClauses(m: Model, ft: map<string, string>, opt: SearchOpt): (cs: seq<Clause>)
    ensures |cs| == |opt.orderBy| + 3
    ensures forall i :: 0 <= i < |opt.orderBy| ==>
      cs[i].OrderBy? && '.' in cs[i].field && cs[i].direction == opt.orderBy[i].1
    ensures cs[|opt.orderBy|].Select? && |cs[|opt.orderBy|].columns| == |opt.select|
    ensures forall i :: 0 <= i < |opt.orderBy| ==> cs[i].field == Qualify(m, ft, opt.orderBy[i].0)
    ensures forall i :: 0 <= i < |opt.select| ==> cs[|opt.orderBy|].columns[i] == SelectColumn(m, ft, opt.select[i])
    ensures cs[|opt.orderBy| + 1] == Offset(opt.offset) && cs[|opt.orderBy| + 2] == Limit(opt.limit)
  {
    var orders := seq(|opt.orderBy|, i requires 0 <= i < |opt.orderBy| =>
      OrderBy(Qualify(m, ft, opt.orderBy[i].0), opt.orderBy[i].1));
    var columns := seq(|opt.select|, i requires 0 <= i < |opt.select| => SelectColumn(m, ft, opt.select[i]));
    orders + [Select(columns), Offset(opt.offset), Limit(opt.limit)]
  }

  /** The tail of a count search (`_searchCount`). */
  function CountColumn(m: Model): (s: string)
    ensures |s| > |m.table| && s[..|m.table|] == m.table && s[|m.table|..] == ".id as count"
  {
    m.table + ".id as count"
  }

  /** The clauses that follow the where predicates: the ordering,
      selection and window of a record search, or the count. */
  function Tail(m: Model, scene: Scene, ft: map<string, string>, opt: SearchOpt): (cs: seq<Clause>)
    ensures forall c :: c in cs ==> !c.LeftJoin? && !c.OrScope? && !IsPredicate(c)
    ensures forall c :: c in cs && c.OrderBy? ==> '.' in c.field
    ensures scene == CountScene ==> cs == [Count(CountColumn(m))]
    ensures scene == RecordScene ==> var n := |cs|;
      && n >= 3 && cs[n - 3].Select? && cs[n - 2] == Offset(opt.offset) && cs[n - 1] == Limit(opt.limit)
      && forall c :: c in cs ==> !c.Count?
  {
    match scene
    case CountScene => [Count(CountColumn(m))]
    case RecordScene =>
      var cs := RecordClauses(m, ft, opt);
      RecordClauseKinds(m, ft, opt);
      cs
  }

  lemma RecordClauseKinds(m: Model, ft: map<string, string>, opt: SearchOpt)
    ensures forall c :: c in RecordClauses(m, ft, opt) ==> c.OrderBy? || c.Select? || c.Offset? || c.Limit?
    ensures forall c :: c in RecordClauses(m, ft, opt) && c.OrderBy? ==> '.' in c.field
  {
    var cs := RecordClauses(m, ft, opt);
    var n := |opt.orderBy|;
    forall c | c in cs ensures (c.OrderBy? || c.Select? || c.Offset? || c.Limit?) && (c.OrderBy? ==> '.' in c.field) {
      var i :| 0 <= i < |cs| && cs[i] == c;
      if i >= n {
        assert i == n || i == n + 1 || i == n + 2;
      }
    }
  }

  /** `_search`: the clauses of one search, or the error its where group
      raises. The join clauses come first and are exactly those of the
      left-join step; then the where predicates, all on qualified columns
      and never in an OR scope; then the scene's tail. */
  function Search(m: Model, scene: Scene, raw: RawOption): (r: Result<seq<Clause>>)
    ensures r.Ok? ==> var js := LeftJoinAll(m, OptionCheck(m, scene, raw)).joins;
      && |js| <= |r.value| && r.value[..|js|] == js
      && forall c :: c in r.value[|js|..] ==> !c.LeftJoin? && !c.OrScope?
  {
    var opt := OptionCheck(m, scene, raw);
    var st := LeftJoinAll(m, opt);
    match SearchWhere(m, st.fieldTable, opt.where)
    case Err(e) => Err(e)
    case Ok(preds) =>
      var tail := Tail(m, scene, st.fieldTable, opt);
      Assembled(st.joins, preds, tail);
      Ok(st.joins + preds + tail)
  }

  /** The joins stay in front of the predicates and the tail. */
  lemma Assembled(js: seq<Clause>, preds: seq<Clause>, tail: seq<Clause>)
    requires forall c :: c in preds ==> IsPredicate(c)
    requires forall c :: c in tail ==> !c.LeftJoin? && !c.OrScope?
    ensures var cs := js + preds + tail;
      && |js| <= |cs| && cs[..|js|] == js
      && (forall c :: c in cs[|js|..] ==> !c.LeftJoin? && !c.OrScope?)
  {
    ConcatFacts(js, preds, tail);
  }

  lemma AllJoins(js: seq<Clause>)
    requires forall i :: 0 <= i < |js| ==> js[i].LeftJoin?
    ensures forall c :: c in js ==> c.LeftJoin?
  {
  }

  /** A search fails only on a where condition the translator rejects. */
  lemma SearchFails(m: Model, scene: Scene, raw: RawOption)
    requires Search(m, scene, raw).Err?
    ensures exists i :: 0 <= i < |OrEmpty(raw.where)| && !Where.ValidCondition(OrEmpty(raw.where)[i].1)
  {
    var opt := OptionCheck(m, scene, raw);
    var st := LeftJoinAll(m, opt);
    assert SearchWhere(m, st.fieldTable, opt.where).Err?;
  }

  /** A search whose where conditions are all accepted by the translator
      succeeds. */
  lemma SearchSucceeds(m: Model, scene: Scene, raw: RawOption)
    requires forall i :: 0 <= i < |OrEmpty(raw.where)| ==> Where.ValidCondition(OrEmpty(raw.where)[i].1)
    ensures Search(m, scene, raw).Ok?
  {
    var opt := OptionCheck(m, scene, raw);
    var st := LeftJoinAll(m, opt);
    assert SearchWhere(m, st.fieldTable, opt.where).Ok?;
  }

  /** A search's clauses are the join clauses, the where predicates and the
      scene's tail, in that order. */
  lemma SearchParts(m: Model, scene: Scene, raw: RawOption) returns (js: seq<Clause>, preds: seq<Clause>, tail: seq<Clause>)
    requires Search(m, scene, raw).Ok?
    ensures Search(m, scene, raw) == Ok(js + preds + tail)
    ensures forall c :: c in js ==> c.LeftJoin?
    ensures forall c :: c in preds ==> IsPredicate(c) && '.' in c.field
    ensures tail == Tail(m, scene, LeftJoinAll(m, OptionCheck(m, scene, raw)).fieldTable, OptionCheck(m, scene, raw))
  {
    var opt := OptionCheck(m, scene, raw);
    var st := LeftJoinAll(m, opt);
    AllJoins(st.joins);
    js, preds, tail := st.joins, SearchWhere(m, st.fieldTable, opt.where).value, Tail(m, scene, st.fieldTable, opt);
  }

  /** Every predicate and every ordering of a search is on a qualified
      `alias.column` reference. */
  lemma SearchQualified(m: Model, scene: Scene, raw: RawOption)
    requires Search(m, scene, raw).Ok?
    ensures forall c :: c in Search(m, scene, raw).value && (IsPredicate(c) || c.OrderBy?) ==> '.' in c.field
  {
    var js, preds, tail := SearchParts(m, scene, raw);
    ConcatFacts(js, preds, tail);
  }

  /** A count search neither orders, selects nor pages: it ends with the
      count of the base table's ids, and the limit it was given is not
      applied. */
  lemma SearchCountShape(m: Model, raw: RawOption)
    requires Search(m, CountScene, raw).Ok?
    ensures var cs := Search(m, CountScene, raw).value;
      |cs| > 0 && cs[|cs| - 1] == Count(CountColumn(m))
    ensures forall c :: c in Search(m, CountScene, raw).value ==> !c.OrderBy? && !c.Select? && !c.Offset? && !c.Limit?
  {
    var js, preds, tail := SearchParts(m, CountScene, raw);
    CountEnd(js, preds, tail, Count(CountColumn(m)));
  }

  lemma CountEnd(js: seq<Clause>, preds: seq<Clause>, tail: seq<Clause>, count: Clause)
    requires forall c :: c in js ==> c.LeftJoin?
    requires forall c :: c in preds ==> IsPredicate(c)
    requires tail == [count] && count.Count?
    ensures var cs := js + preds + tail;
      && |cs| > 0 && cs[|cs| - 1] == count
      && forall c :: c in cs ==> !c.OrderBy? && !c.Select? && !c.Offset? && !c.Limit?
  {
    ConcatFacts(js, preds, tail);
    forall c | c in js + preds + tail
      ensures !c.OrderBy? && !c.Select? && !c.Offset? && !c.Limit?
    {
      assert c in js || c in preds || c in tail;
    }
  }

  /** A record search never counts, and ends with its selection, its
      offset and its limit, which defaults to 1000 and is never 0. */
  lemma SearchRecordShape(m: Model, raw: RawOption)
    requires Search(m, RecordScene, raw).Ok?
    ensures var cs := Search(m, RecordScene, raw).value; var n := |cs|;
      && n >= 3 && cs[n - 3].Select? && cs[n - 2] == Offset(OrNumber(raw.offset, 0))
      && cs[n - 1] == Limit(OrNumber(raw.limit, DefaultLimit)) && cs[n - 1].limit != 0
    ensures forall c :: c in Search(m, RecordScene, raw).value ==> !c.Count?
  {
    var js, preds, tail := SearchParts(m, RecordScene, raw);
    RecordEnd(js, preds, tail, OrNumber(raw.offset, 0), OrNumber(raw.limit, DefaultLimit));
  }

  lemma RecordEnd(js: seq<Clause>, preds: seq<Clause>, tail: seq<Clause>, offset: int, limit: int)
    requires forall c :: c in js ==> c.LeftJoin?
    requires forall c :: c in preds ==> IsPredicate(c)
    requires var n := |tail|;
      && n >= 3 && tail[n - 3].Select? && tail[n - 2] == Offset(offset) && tail[n - 1] == Limit(limit)
      && forall c :: c in tail ==> !c.Count?
    ensures var cs := js + preds + tail; var n := |cs|;
      && n >= 3 && cs[n - 3].Select? && cs[n - 2] == Offset(offset) && cs[n - 1] == Limit(limit)
      && forall c :: c in cs ==> !c.Count?
  {
    ConcatFacts(js, preds, tail);
  }

  /** A search assembled from the results of its steps. */
  lemma SearchSteps(m: Model, scene: Scene, raw: RawOption, opt: SearchOpt, st: JoinState, preds: seq<Clause>, tail: seq<Clause>)
    requires opt == OptionCheck(m, scene, raw)
    requires st == LeftJoinAll(m, opt)
    requires SearchWhere(m, st.fieldTable, opt.where) == Ok(preds)
    requires tail == Tail(m, scene, st.fieldTable, opt)
    ensures Search(m, scene, raw) == Ok(st.joins + preds + tail)
  {
  }

  /** How the three parts of a search sit in its clause list. */
  lemma ConcatFacts(js: seq<Clause>, preds: seq<Clause>, tail: seq<Clause>)
    ensures var cs := js + preds + tail;
      && cs[..|js|] == js && cs[|js|..] == preds + tail
      && |cs| == |js| + |preds| + |tail|
      && (|tail| >= 1 ==> cs[|cs| - 1] == tail[|tail| - 1])
      && (|tail| >= 3 ==> cs[|cs| - 3] == tail[|tail| - 3] && cs[|cs| - 2] == tail[|tail| - 2])
      && (forall c :: c in cs ==> c in js || c in preds || c in tail)
      && (forall c :: c in cs[|js|..] <==> c in preds || c in tail)
  {
  }

  /** A search that references no join field makes no join and maps no
      field, so every field is read from the base table. */
  lemma NoJoinWithoutReference(m: Model, scene: Scene, raw: RawOption)
    requires forall k, a :: 0 <= k < |m.joins| && a in FieldAliases(m.joins[k]) ==>
      !Referenced(a, OptionCheck(m, scene, raw))
    ensures LeftJoinAll(m, OptionCheck(m, scene, raw)) == Start(m.table)
  {
    var opt := OptionCheck(m, scene, raw);
    NoneNeeded(Start(m.table), m.table, opt, m.joins);
  }

  lemma {:induction false} NoneNeeded(st: JoinState, base: string, opt: SearchOpt, js: seq<Join>)
    requires forall k, a :: 0 <= k < |js| && a in FieldAliases(js[k]) ==> !Referenced(a, opt)
    ensures ResolveAll(st, base, opt, js) == st
    decreases |js|
  {
    if |js| > 0 {
      UnneededJoinIsSkipped(st, base, opt, js[0]);
      assert forall k :: 0 <= k < |js| - 1 ==> js[1..][k] == js[k + 1];
      NoneNeeded(st, base, opt, js[1..]);
    }
  }

  /** The join clauses of a search carry pairwise distinct aliases, none of
      them the base table's name, when no table name ends in a digit. */
  lemma SearchAliasesDistinct(m: Model, scene: Scene, raw: RawOption)
    requires NoTrailingDigits(m)
    requires Search(m, scene, raw).Ok?
    ensures var cs := Search(m, scene, raw).value;
      forall i, j :: 0 <= i < j < |cs| && cs[i].LeftJoin? && cs[j].LeftJoin? ==>
        cs[i].alias != cs[j].alias && cs[i].alias != m.table
  {
    var opt := OptionCheck(m, scene, raw);
    var js := LeftJoinAll(m, opt).joins;
    var cs := Search(m, scene, raw).value;
    LeftJoinAliasesDistinct(m, opt);
    forall i, j | 0 <= i < j < |cs| && cs[i].LeftJoin? && cs[j].LeftJoin?
      ensures cs[i].alias != cs[j].alias && cs[i].alias != m.table
    {
      InJoinPrefix(cs, js, i);
      InJoinPrefix(cs, js, j);
    }
  }

  lemma InJoinPrefix(cs: seq<Clause>, js: seq<Clause>, i: nat)
    requires |js| <= |cs| && cs[..|js|] == js
    requires forall c :: c in cs[|js|..] ==> !c.LeftJoin?
    requires i < |cs| && cs[i].LeftJoin?
    ensures i < |js| && cs[i] == js[i]
  {
    if i < |js| {
      assert cs[..|js|][i] == cs[i];
    }
  }

  /** A selected join field is read from the table its join path reached in
      this search, under the column a declaration gives it, and named as
      the caller asked; the table is one a join clause of the same search
      introduced, or the base table for an empty path. Table names are
      assumed non-empty, so that the alias is not falsy. */
  lemma SelectedJoinField(m: Model, raw: RawOption, a: string, k: nat)
    requires m.table != "" && forall k', h :: 0 <= k' < |m.joins| && 0 <= h < |m.joins[k'].path| ==> m.joins[k'].path[h].rtable != ""
    requires '.' !in a && '*' !in a
    requires k < |m.joins| && a in FieldAliases(m.joins[k])
    requires a in OptionCheck(m, RecordScene, raw).select
    ensures var st := LeftJoinAll(m, OptionCheck(m, RecordScene, raw));
      && a in st.fieldTable
      && (st.fieldTable[a] == m.table || st.fieldTable[a] in EmittedAliases(st.joins))
      && exists k', i ::
        && 0 <= k' < |m.joins| && 0 <= i < |m.joins[k'].select| && m.joins[k'].select[i].0 == a
        && SelectColumn(m, st.fieldTable, a) == st.fieldTable[a] + "." + m.joins[k'].select[i].1 + " as " + a
  {
    var opt := OptionCheck(m, RecordScene, raw);
    var st := LeftJoinAll(m, opt);
    assert Referenced(a, opt);
    FieldTableDomain(m, opt, a);
    assert st.fieldTable[a] != "" by {
      if st.fieldTable[a] != m.table {
        EmittedAliasNonEmpty(m, opt, st.fieldTable[a]);
      }
    }
    QualifyJoinField(m, st.fieldTable, a, k);
  }

  /** Every alias a join clause introduces is non-empty when every table
      name is. */
  lemma EmittedAliasNonEmpty(m: Model, opt: SearchOpt, alias: string)
    requires forall k', h :: 0 <= k' < |m.joins| && 0 <= h < |m.joins[k'].path| ==> m.joins[k'].path[h].rtable != ""
    requires alias in EmittedAliases(LeftJoinAll(m, opt).joins)
    ensures alias != ""
  {
    var js := LeftJoinAll(m, opt).joins;
    var i := EmittedAliasAt(js, alias);
    JoinedTableDeclared(m, opt, i);
    LeftJoinAliasNumbering(m, opt);
    AliasAt(js, m.table, i);
  }

  /** Every join clause of a search joins a table some hop names. */
  lemma JoinedTableDeclared(m: Model, opt: SearchOpt, i: nat)
    requires i < |LeftJoinAll(m, opt).joins| && LeftJoinAll(m, opt).joins[i].LeftJoin?
    ensures exists k, h ::
      && 0 <= k < |m.joins| && 0 <= h < |m.joins[k].path|
      && m.joins[k].path[h].rtable == LeftJoinAll(m, opt).joins[i].table
  {
    var tables := set k, h | 0 <= k < |m.joins| && 0 <= h < |m.joins[k].path| :: m.joins[k].path[h].rtable;
    StartInv(m.table);
    ResolveAllInv(Start(m.table), m.table, opt, m.joins);
    ResolveAllTables(Start(m.table), m.table, opt, m.joins, tables);
    assert LeftJoinAll(m, opt).joins[i].table in tables;
  }

  /** The join clause that introduced an alias. */
  lemma {:induction false} EmittedAliasAt(cs: seq<Clause>, alias: string) returns (i: nat)
    requires alias in EmittedAliases(cs)
    ensures i < |cs| && cs[i].LeftJoin? && cs[i].alias == alias
    decreases |cs|
  {
    var n := |cs| - 1;
    if cs[n].LeftJoin? && cs[n].alias == alias {
      i := n;
    } else {
      i := EmittedAliasAt(cs[..n], alias);
      assert cs[..n][i] == cs[i];
    }
  }
}

=== FILE: where.dfy ===
/** The condition translator: turns a filter, one group of field conditions
    or an array of groups, into predicate calls on the query builder. */
module Where {
  import opened Outcomes
  import opened Knex
  import opened JsString
  import JsMap

  /** A filter group: field name to condition, in the object's entry order. */
  type Group = seq<(string, Value)>

  /** The argument of `parseToSqlBuilder`: one group, or an array of groups. */
  datatype Filter = Single(group: Group) | Groups(groups: seq<Group>)

  /** The operators of the condition table, one per entry. */
  datatype Operator = Eq | Gt | Gte | Lt | Lte | Ne | Null | NotNull | In | NotIn | Like | Between

  /** The key under which the table registers each operator. The not-null
      entry is registered as `$notNUll`, so that is the only spelling the
      translator accepts. */
  function OperatorKey(op: Operator): string {
    match op
    case Eq => "$eq"
    case Gt => "$gt"
    case Gte => "$gte"
    case Lt => "$lt"
    case Lte => "$lte"
    case Ne => "$ne"
    case Null => "$null"
    case NotNull => "$notNUll"
    case In => "$in"
    case NotIn => "$notIn"
    case Like => "$like"
    case Between => "$between"
  }

  /** Looking a key up in the operator table. */
  function LookupOperator(key: string): (r: Option<Operator>)
    ensures r.Some? ==> OperatorKey(r.value) == key
  {
    if key == "$eq" then Some(Eq)
    else if key == "$gt" then Some(Gt)
    else if key == "$gte" then Some(Gte)
    else if key == "$lt" then Some(Lt)
    else if key == "$lte" then Some(Lte)
    else if key == "$ne" then Some(Ne)
    else if key == "$null" then Some(Null)
    else if key == "$notNUll" then Some(NotNull)
    else if key == "$in" then Some(In)
    else if key == "$notIn" then Some(NotIn)
    else if key == "$like" then Some(Like)
    else if key == "$between" then Some(Between)
    else None
  }

  /** The table is a bijection between operators and their keys. */
  lemma OperatorTableRoundTrip(op: Operator)
    ensures LookupOperator(OperatorKey(op)) == Some(op)
  {
  }

  /** A key is found exactly when some operator is registered under it. */
  lemma LookupOperatorComplete(key: string)
    ensures LookupOperator(key).None? <==> forall op: Operator :: OperatorKey(op) != key
  {
    if LookupOperator(key).None? {
      forall op: Operator ensures OperatorKey(op) != key {
        OperatorTableRoundTrip(op);
      }
    }
  }

  /** The builder call each operator makes on `field` with its operand. */
  function Apply(op: Operator, field: string, operand: Value): (c: Clause)
    ensures IsPredicate(c) && c.field == field
  {
    match op
    case Eq => Where(field, "=", operand)
    case Gt => Where(field, ">", operand)
    case Gte => Where(field, ">=", operand)
    case Lt => Where(field, "<", operand)
    case Lte => Where(field, "<=", operand)
    case Ne => Where(field, "!=", operand)
    case Null => WhereNull(field)
    case NotNull => WhereNotNull(field)
    case In => WhereIn(field, operand)
    case NotIn => WhereNotIn(field, operand)
    case Like => Where(field, "LIKE", operand)
    case Between => WhereBetween(field, operand)
  }

  /** The null checks take no operand: whatever value accompanies `$null` or
      `$notNUll` (normally `true`), the same call is made. */
  lemma NullChecksIgnoreOperand(op: Operator, field: string, v: Value, w: Value)
    requires op == Null || op == NotNull
    ensures Apply(op, field, v) == Apply(op, field, w)
    ensures Apply(op, field, v) == if op == Null then WhereNull(field) else WhereNotNull(field)
  {
  }

  /** A condition that is not an object, or is a `Date`: compared for equality. */
  predicate IsScalar(v: Value) {
    v.Num? || v.Str? || v.Bool? || v.Date?
  }

  /** `Object.entries` of an object condition; an array's keys are its
      indices written in decimal. */
  function Entries(v: Value): (es: seq<(string, Value)>)
    requires !IsScalar(v)
    ensures v.Obj? ==> es == v.entries
    ensures v.Arr? ==> |es| == |v.items| && forall i :: 0 <= i < |es| ==> es[i] == (DecimalString(i), v.items[i])
  {
    match v
    case Obj(entries) => entries
    case Arr(items) => seq(|items|, i requires 0 <= i < |items| => (DecimalString(i), items[i]))
  }

  /** The error thrown for a key that is not in the operator table. */
  function InvalidMessage(key: string): string {
    "condition " + key + " invalid"
  }

  /** Applies every entry of an operator object to `field`, in entry order;
      the first key missing from the table raises its error. */
  function ParseOperators(field: string, ops: seq<(string, Value)>): (r: Result<seq<Clause>>)
    ensures r.Ok? <==> forall i :: 0 <= i < |ops| ==> LookupOperator(ops[i].0).Some?
    ensures r.Ok? ==> |r.value| == |ops|
    ensures r.Ok? ==> forall i :: 0 <= i < |ops| ==>
      LookupOperator(ops[i].0).Some? && r.value[i] == Apply(LookupOperator(ops[i].0).value, field, ops[i].1)
    ensures r.Err? ==> exists i :: 0 <= i < |ops| && FirstInvalid(ops, i) && r.error == InvalidMessage(ops[i].0)
    decreases |ops|
  {
    if |ops| == 0 then Ok([])
    else match LookupOperator(ops[0].0)
      case None =>
        assert FirstInvalid(ops, 0);
        Err(InvalidMessage(ops[0].0))
      case Some(op) =>
        match ParseOperators(field, ops[1..])
        case Err(e) =>
          FirstInvalidShift(ops, e);
          Err(e)
        case Ok(rest) =>
          OperatorsCons(field, ops, op, rest);
          Ok([Apply(op, field, ops[0].1)] + rest)
  }

  lemma OperatorsCons(field: string, ops: seq<(string, Value)>, op: Operator, rest: seq<Clause>)
    requires |ops| > 0 && LookupOperator(ops[0].0) == Some(op)
    requires |rest| == |ops| - 1
    requires forall i :: 0 <= i < |ops| - 1 ==>
      LookupOperator(ops[1..][i].0).Some? && rest[i] == Apply(LookupOperator(ops[1..][i].0).value, field, ops[1..][i].1)
    ensures var cs := [Apply(op, field, ops[0].1)] + rest;
      && |cs| == |ops|
      && forall i :: 0 <= i < |ops| ==>
        LookupOperator(ops[i].0).Some? && cs[i] == Apply(LookupOperator(ops[i].0).value, field, ops[i].1)
  {
    var cs := [Apply(op, field, ops[0].1)] + rest;
    forall i | 0 <= i < |ops|
      ensures LookupOperator(ops[i].0).Some? && cs[i] == Apply(LookupOperator(ops[i].0).value, field, ops[i].1)
    {
      if i > 0 {
        var j := i - 1;
        assert ops[1..][j] == ops[i];
        assert cs[i] == rest[j];
      }
    }
  }

  lemma FirstInvalidShift(ops: seq<(string, Value)>, e: string)
    requires |ops| > 0 && LookupOperator(ops[0].0).Some?
    requires exists i :: 0 <= i < |ops| - 1 && FirstInvalid(ops[1..], i) && e == InvalidMessage(ops[1..][i].0)
    ensures exists i :: 0 <= i < |ops| && FirstInvalid(ops, i) && e == InvalidMessage(ops[i].0)
    ensures exists i :: 0 <= i < |ops| && LookupOperator(ops[i].0).None?
  {
    var i :| 0 <= i < |ops| - 1 && FirstInvalid(ops[1..], i) && e == InvalidMessage(ops[1..][i].0);
    assert FirstInvalid(ops, i + 1);
  }

  /** `ops[i]` holds the first key missing from the operator table. */
  ghost predicate FirstInvalid(ops: seq<(string, Value)>, i: int)
    requires 0 <= i < |ops|
  {
    LookupOperator(ops[i].0).None? && forall j :: 0 <= j < i ==> LookupOperator(ops[j].0).Some?
  }

  /** A condition the translator accepts: a plain value, or an object whose
      keys are all operator keys. */
  predicate ValidCondition(cond: Value) {
    IsScalar(cond) || forall i :: 0 <= i < |Entries(cond)| ==> LookupOperator(Entries(cond)[i].0).Some?
  }

  /** Translates the condition on one field. */
  function ParseCondition(field: string, cond: Value): (r: Result<seq<Clause>>)
    ensures r.Ok? <==> ValidCondition(cond)
    ensures IsScalar(cond) ==> r == Ok([Where(field, "=", cond)])
    ensures !IsScalar(cond) ==> (r.Ok? <==> forall i :: 0 <= i < |Entries(cond)| ==> LookupOperator(Entries(cond)[i].0).Some?)
    ensures r.Ok? ==> forall c :: c in r.value ==> IsPredicate(c) && c.field == field
  {
    if IsScalar(cond) then Ok([Where(field, "=", cond)])
    else ParseOperators(field, Entries(cond))
  }

  /** Translates one group: the conditions of its fields, in entry order,
      all AND-combined at the level they are applied. */
  function ParseWhere(group: Group): (r: Result<seq<Clause>>)
    ensures r.Ok? <==> forall i :: 0 <= i < |group| ==> ParseCondition(group[i].0, group[i].1).Ok?
    ensures r.Ok? ==> forall c :: c in r.value ==> IsPredicate(c) && c.field in JsMap.Keys(group)
    ensures r.Err? ==> exists i :: 0 <= i < |group| && FirstFailing(group, ParseCondition, i) && r == ParseCondition(group[i].0, group[i].1)
    ensures |group| == 1 ==> r == ParseCondition(group[0].0, group[0].1)
    decreases |group|
  {
    if |group| == 0 then Ok([])
    else match ParseCondition(group[0].0, group[0].1)
      case Err(e) =>
        assert FirstFailing(group, ParseCondition, 0);
        Err(e)
      case Ok(first) =>
        match ParseWhere(group[1..])
        case Err(e) =>
          ConditionsShiftErr(group, ParseCondition, Err(e));
          Err(e)
        case Ok(rest) =>
          ConditionsCons(group, ParseCondition, first, rest);
          assert |group| == 1 ==> first + rest == first;
          Ok(first + rest)
  }

  /** `group[i]` holds the first condition `parse` rejects: `forEach` stops
      at the first throw. */
  ghost predicate FirstFailing(group: Group, parse: (string, Value) -> Result<seq<Clause>>, i: int)
    requires 0 <= i < |group|
  {
    parse(group[i].0, group[i].1).Err? && forall j :: 0 <= j < i ==> parse(group[j].0, group[j].1).Ok?
  }

  lemma ConditionsShiftErr(group: Group, parse: (string, Value) -> Result<seq<Clause>>, r: Result<seq<Clause>>)
    requires |group| > 0 && parse(group[0].0, group[0].1).Ok?
    requires exists i :: 0 <= i < |group| - 1 && FirstFailing(group[1..], parse, i) && r == parse(group[1..][i].0, group[1..][i].1)
    ensures exists i :: 0 <= i < |group| && FirstFailing(group, parse, i) && r == parse(group[i].0, group[i].1)
  {
    var i :| 0 <= i < |group| - 1 && FirstFailing(group[1..], parse, i) && r == parse(group[1..][i].0, group[1..][i].1);
    assert group[1..][i] == group[i + 1];
    forall j | 0 <= j < i + 1 ensures parse(group[j].0, group[j].1).Ok? {
      if j > 0 {
        assert group[1..][j - 1] == group[j];
      }
    }
    assert FirstFailing(group, parse, i + 1);
  }

  /** Prepending the calls of the first field to those of the rest. */
  lemma ConditionsCons(group: Group, parse: (string, Value) -> Result<seq<Clause>>, first: seq<Clause>, rest: seq<Clause>)
    requires |group| > 0 && parse(group[0].0, group[0].1) == Ok(first)
    requires forall c :: c in first ==> IsPredicate(c) && c.field == group[0].0
    requires forall i :: 0 <= i < |group| - 1 ==> parse(group[1..][i].0, group[1..][i].1).Ok?
    requires forall c :: c in rest ==> IsPredicate(c) && c.field in JsMap.Keys(group[1..])
    ensures forall i :: 0 <= i < |group| ==> parse(group[i].0, group[i].1).Ok?
    ensures forall c :: c in first + rest ==> IsPredicate(c) && c.field in JsMap.Keys(group)
  {
    forall i | 0 < i < |group| ensures parse(group[i].0, group[i].1).Ok? {
      assert group[1..][i - 1] == group[i];
    }
    assert JsMap.Keys(group) == [group[0].0] + JsMap.Keys(group[1..]);
  }

  /** A group of plain values compares each field for equality, in order. */
  lemma {:induction false} ScalarGroup(group: Group)
    requires forall i :: 0 <= i < |group| ==> IsScalar(group[i].1)
    ensures ParseWhere(group).Ok?
    ensures |ParseWhere(group).value| == |group|
    ensures forall i :: 0 <= i < |group| ==> ParseWhere(group).value[i] == Where(group[i].0, "=", group[i].1)
    decreases |group|
  {
    if |group| > 0 {
      var tail := group[1..];
      ScalarGroup(tail);
      var rest := ParseWhere(tail).value;
      assert ParseCondition(group[0].0, group[0].1) == Ok([Where(group[0].0, "=", group[0].1)]);
      assert ParseWhere(group) == Ok([Where(group[0].0, "=", group[0].1)] + rest);
      forall i | 1 <= i < |group|
        ensures ParseWhere(group).value[i] == Where(group[i].0, "=", group[i].1)
      {
        assert tail[i - 1] == group[i];
      }
    }
  }

  /** Translating a group is translating its entries one after the other:
      the calls of a concatenation are the calls of each part, in order, and
      a failure in the first part is reported before anything in the
      second. */
  lemma {:induction false} ParseWhereAppend(g1: Group, g2: Group)
    ensures ParseWhere(g1).Err? ==> ParseWhere(g1 + g2) == ParseWhere(g1)
    ensures ParseWhere(g1).Ok? ==> ParseWhere(g1 + g2) == AppendCalls(ParseWhere(g1).value, ParseWhere(g2))
    decreases |g1|
  {
    if |g1| == 0 {
      assert g1 + g2 == g2;
      assert ParseWhere(g1) == Ok([]);
      AppendCallsNil(ParseWhere(g2));
    } else {
      var g := g1 + g2;
      assert g[0] == g1[0];
      assert g[1..] == g1[1..] + g2;
      ParseWhereAppend(g1[1..], g2);
      ParseWhereCons(g);
      ParseWhereCons(g1);
      AppendStep(ParseCondition(g1[0].0, g1[0].1), ParseWhere(g1[1..]), ParseWhere(g[1..]), ParseWhere(g2),
        ParseWhere(g), ParseWhere(g1));
    }
  }

  /** The inductive step of `ParseWhereAppend`, over outcomes only. */
  lemma AppendStep(c: Result<seq<Clause>>, rest1: Result<seq<Clause>>, rest12: Result<seq<Clause>>,
                   r2: Result<seq<Clause>>, r12: Result<seq<Clause>>, r1: Result<seq<Clause>>)
    requires r12 == if c.Err? then c else AppendCalls(c.value, rest12)
    requires r1 == if c.Err? then c else AppendCalls(c.value, rest1)
    requires rest1.Err? ==> rest12 == rest1
    requires rest1.Ok? ==> rest12 == AppendCalls(rest1.value, r2)
    ensures r1.Err? ==> r12 == r1
    ensures r1.Ok? ==> r12 == AppendCalls(r1.value, r2)
  {
    if c.Ok? && rest1.Ok? {
      AppendCallsAssoc(c.value, rest1.value, r2);
    }
  }

  /** One step of the translation of a non-empty group. */
  lemma ParseWhereCons(g: Group)
    requires |g| > 0
    ensures var c := ParseCondition(g[0].0, g[0].1);
      ParseWhere(g) == if c.Err? then c else AppendCalls(c.value, ParseWhere(g[1..]))
  {
  }

  lemma AppendCallsNil(rest: Result<seq<Clause>>)
    ensures AppendCalls([], rest) == rest
  {
    if rest.Ok? {
      assert [] + rest.value == rest.value;
    }
  }

  lemma AppendCallsAssoc(a: seq<Clause>, b: seq<Clause>, rest: Result<seq<Clause>>)
    ensures AppendCalls(a, AppendCalls(b, rest)) == AppendCalls(a + b, rest)
  {
    if rest.Ok? {
      assert a + (b + rest.value) == (a + b) + rest.value;
    }
  }

  /** The calls `first` followed by the outcome `rest`. */
  function AppendCalls(first: seq<Clause>, rest: Result<seq<Clause>>): Result<seq<Clause>> {
    match rest
    case Ok(cs) => Ok(first + cs)
    case Err(e) => Err(e)
  }

  /** Each group of an array of two or more, as its own OR scope. */
  function OrScopes(groups: seq<Group>): (r: Result<seq<Clause>>)
    ensures r.Ok? <==> forall i :: 0 <= i < |groups| ==> ParseWhere(groups[i]).Ok?
    ensures r.Ok? ==> |r.value| == |groups|
    ensures r.Ok? ==> forall i :: 0 <= i < |groups| ==>
      ParseWhere(groups[i]).Ok? && r.value[i] == OrScope(ParseWhere(groups[i]).value)
    ensures r.Err? ==> exists i :: 0 <= i < |groups| && r == ParseWhere(groups[i])
    decreases |groups|
  {
    if |groups| == 0 then Ok([])
    else match ParseWhere(groups[0])
      case Err(e) => Err(e)
      case Ok(first) =>
        match OrScopes(groups[1..])
        case Err(e) =>
          GroupsShiftErr(groups, ParseWhere, Err(e));
          Err(e)
        case Ok(rest) =>
          ScopesCons(groups, ParseWhere, first, rest);
          Ok([OrScope(first)] + rest)
  }

  lemma GroupsShiftErr(groups: seq<Group>, parse: Group -> Result<seq<Clause>>, r: Result<seq<Clause>>)
    requires |groups| > 0
    requires exists i :: 0 <= i < |groups| - 1 && r == parse(groups[1..][i])
    ensures exists i :: 0 <= i < |groups| && r == parse(groups[i])
  {
    var i :| 0 <= i < |groups| - 1 && r == parse(groups[1..][i]);
    assert groups[1..][i] == groups[i + 1];
  }

  /** Prepending the scope of the first group to the scopes of the rest. */
  lemma ScopesCons(groups: seq<Group>, parse: Group -> Result<seq<Clause>>, first: seq<Clause>, rest: seq<Clause>)
    requires |groups| > 0 && parse(groups[0]) == Ok(first)
    requires |rest| == |groups| - 1
    requires forall i :: 0 <= i < |groups| - 1 ==>
      parse(groups[1..][i]).Ok? && rest[i] == OrScope(parse(groups[1..][i]).value)
    ensures var cs := [OrScope(first)] + rest;
      && |cs| == |groups|
      && forall i :: 0 <= i < |groups| ==> parse(groups[i]).Ok? && cs[i] == OrScope(parse(groups[i]).value)
  {
    var cs := [OrScope(first)] + rest;
    forall i | 0 < i < |groups| ensures parse(groups[i]).Ok? && cs[i] == OrScope(parse(groups[i]).value) {
      assert groups[1..][i - 1] == groups[i];
      assert cs[i] == rest[i - 1];
    }
  }

  /** `parseToSqlBuilder`: a single group is applied as it is; an empty
      array adds nothing; a one-element array is unwrapped; two or more
      groups become one OR scope each. */
  function ParseToSqlBuilder(filter: Filter): (r: Result<seq<Clause>>)
    ensures filter.Single? ==> r == ParseWhere(filter.group)
    ensures filter.Single? && r.Ok? ==> forall c :: c in r.value ==> IsPredicate(c)
    ensures filter.Groups? && |filter.groups| == 1 ==> r == ParseWhere(filter.groups[0])
    ensures filter.Groups? && |filter.groups| == 0 ==> r == Ok([])
    ensures filter.Groups? && |filter.groups| >= 2 ==>
      (r.Ok? <==> forall i :: 0 <= i < |filter.groups| ==> ParseWhere(filter.groups[i]).Ok?)
    ensures filter.Groups? && |filter.groups| >= 2 && r.Ok? ==>
      |r.value| == |filter.groups| &&
      forall i :: 0 <= i < |filter.groups| ==> r.value[i].OrScope? && Ok(r.value[i].scope) == ParseWhere(filter.groups[i])
  {
    match filter
    case Single(group) => ParseWhere(group)
    case Groups(groups) =>
      if |groups| == 0 then Ok([])
      else if |groups| == 1 then ParseWhere(groups[0])
      else OrScopes(groups)
  }

  /** A one-element array means exactly what its only group means. */
  lemma SingletonUnwrapped(group: Group)
    ensures ParseToSqlBuilder(Groups([group])) == ParseToSqlBuilder(Single(group))
  {
  }

  /** Operator keys are checked one by one: an invalid key fails the
      condition even when a valid one precedes it. */
  lemma InvalidKeyAfterValidFails(field: string, ops: seq<(string, Value)>, i: nat)
    requires i < |ops| && LookupOperator(ops[i].0).None?
    ensures ParseCondition(field, Obj(ops)).Err?
  {
  }

  /** An object condition with one registered operator makes that
      operator's call. */
  lemma SingleOperator(field: string, key: string, v: Value, op: Operator)
    requires LookupOperator(key) == Some(op)
    ensures ParseCondition(field, Obj([(key, v)])) == Ok([Apply(op, field, v)])
  {
    var ops := [(key, v)];
    assert Entries(Obj(ops)) == ops;
    var r := ParseOperators(field, ops);
    assert r.Ok? && |r.value| == 1;
    assert r.value[0] == Apply(op, field, v);
    assert r.value == [Apply(op, field, v)];
  }

  /** An object condition whose first key is not registered raises that
      key's error. */
  lemma FirstKeyInvalid(field: string, ops: seq<(string, Value)>)
    requires |ops| > 0 && LookupOperator(ops[0].0).None?
    ensures ParseCondition(field, Obj(ops)) == Err(InvalidMessage(ops[0].0))
  {
    assert Entries(Obj(ops)) == ops;
  }

  /** The correctly spelled `$notNull` is not in the table and raises the
      invalid-condition error, while the registered `$notNUll` adds the
      not-null check. */
  lemma NotNullSpelling(field: string)
    ensures ParseCondition(field, Obj([("$notNull", Bool(true))])) == Err("condition $notNull invalid")
    ensures ParseCondition(field, Obj([("$notNUll", Bool(true))])) == Ok([WhereNotNull(field)])
  {
    MisspelledNotNull(field, "$notNull");
    SingleOperator(field, "$notNUll", Bool(true), NotNull);
  }

  lemma MisspelledNotNull(field: string, key: string)
    requires key == "$notNull"
    ensures ParseCondition(field, Obj([(key, Bool(true))])) == Err("condition $notNull invalid")
  {
    assert LookupOperator(key) == None;
    FirstKeyInvalid(field, [(key, Bool(true))]);
    assert InvalidMessage(key) == "condition $notNull invalid";
  }

  /** A non-empty array given as a condition fails on its first index. */
  lemma ArrayConditionFails(field: string, items: seq<Value>)
    requires |items| > 0
    ensures ParseCondition(field, Arr(items)) == Err("condition 0 invalid")
  {
    var es := Entries(Arr(items));
    assert es[0].0 == DecimalString(0) == "0";
    IndexKeyInvalid(field, es);
  }

  lemma IndexKeyInvalid(field: string, es: seq<(string, Value)>)
    requires |es| > 0 && es[0].0 == "0"
    ensures ParseOperators(field, es) == Err("condition 0 invalid")
  {
    assert LookupOperator(es[0].0) == None;
    assert InvalidMessage(es[0].0) == "condition 0 invalid";
  }
}
